=== FILE: README.md ===
# AT24Cx EEPROM driver — page-aware transfer engine

This project models the `AT24CxEeprom` driver class for AT24C01…AT24C512
serial EEPROMs on an I2C bus, and proves properties of it in Dafny. The
modelled parts are:

- the single-byte `write`/`read`, each one bus transaction retried up to
  eight times;
- the range `write`/`read`, which cut `[address, address + count)` at page
  boundaries and hand each page's part to `writeToPage`/`readFromPage`;
- those per-page helpers, which split a page's part into bus transactions
  as the transport's buffers allow, retry each transaction and advance by
  the count the transport reports;
- the page masks, the error codes, the retry ceilings, the bus-address
  formula and the capacity and page size of each chip variant.

Layout:

| file | module | contents |
|---|---|---|
| `bits.dfy` | `Bits` | C's `&` and 32-bit `~` on naturals, powers of two, and `Wrap` (counting modulo `m`) with the lemmas relating them |
| `eeprom_defs.dfy` | `EepromDefs` | `ERROR`, `isOk`, the retry constants, the page masks and what they compute, the address bytes, the bus address, the engine configuration |
| `chips.dfy` | `Chips` | the ten variants' `totalSize()`/`pageSize()` |
| `segmentation.dfy` | `Segmentation` | the reference cut of a range into page segments (`Segments`), its partition lemmas, the `Walk` state the range loops keep, and `RangeRounds`, the loops' page calls as written with the 16-bit wrap of the page start |
| `device.dfy` | `Device` | the chip's memory array: splicing, page writes that roll over inside their page, sequential reads |
| `wire.dfy` | `Transport` | the `TwoWire` transport as a class whose calls act on a `Link` value: chip memory, address pointer, scripted transaction outcomes and a log of the bus traffic |
| `write_spec.dfy`, `read_spec.dfy` | `WriteSpec`, `ReadSpec` | one write transaction and one address phase or read request, as functions of the `Link` |
| `engine.dfy` | `AT24Cx` | the driver class `AT24CxEeprom` with its methods and their loops |
| `properties.dfy` | `RoundTrip` | the driver test suite's write-then-read round trips |

The transport is an oracle. Every `endTransmission` and `requestFrom`
takes its outcome from a script that the caller of the model chooses
freely. Once the script is used up, every transaction succeeds. The chip
behind it stores an acknowledged frame and nothing of a refused one, and
reads a two-byte word address for every variant; the section "Left out"
below says where real chips differ. The driver's loops are specified
against that script and the chip's memory:

- which bytes end up stored (`Stored`, a `Splice` of the old memory);
- which bytes the caller's buffer receives (a `Splice` of the old buffer);
- which page segments were transferred (a prefix of `Segments`), and that
  a failed range operation stopped inside the last segment it attempted
  (`StopsIn`);
- what the last transactions on the bus were when an operation fails
  (`Refused`, `NothingArrived`, `ReadStopped`), and which status a failed
  page operation returns (the last refused one, `StoppedAt`);
- that every transaction went to the driver's bus address, and which
  frame each one carried;
- how many transactions an operation may take (`Budget`);
- when an operation must succeed: for writes, a script with no run of
  eight refusals (`NoRun`); for reads, a script that keeps every read
  round clear (`ReadClear`): fewer than eight refusals before the round's
  acknowledged address phase, and that phase's request answered. Refusals
  may come anywhere, also after earlier rounds succeeded, since each round
  retries afresh. The empty script is clear for both
  (`ReadSpec.EmptyScriptClear`).

The source's nested loops appear in the model as methods with `while`
loops. Several inner parts are their own methods:

- `TransmitChunk` is the retry loop of `writeToPage`.
- `SendAddress`, `SeekAddress`, `FetchChunk` and `ReceiveChunk` are the retry loop of `readFromPage`; `ReadChunkRound` is one round of its outer loop.
- `SendData` is one write transaction: begin, the two address bytes, the data, end. The single-byte write and `writeToPage` both use it.
- `WritePageRound` and `ReadPageRound` are one round of the range loops: the page transfer and the four updates that follow it. `ReadSegment` is the page transfer of a range read round.
- `SplitAddress` is the two mask lines at the top of the range operations.

Three behaviours of the code to note:

- The retry ceilings are the class constants, 8. They shadow the
  file-level 10s inside the member functions.
- After an acknowledged address phase with no data, `readFromPage` stops
  with `NO_DATA_AVAILABLE` and does not retry.
- The single-byte `read` reports success once its address phase is
  acknowledged, even when no byte arrives.

## Model

| member | source | states |
|---|---|---|
| EepromDefs.ErrorCodes | src/AT24CxEeprom.h:108-121 | the five error codes are distinct, only `WIRE_NO_ERROR` is ok, and both retry ceilings are at least 1 |
| EepromDefs.OffsetMask | src/AT24CxEeprom.h:126 | for a power-of-two page size, `address & pageOffsetMask()` is the address modulo the page size |
| EepromDefs.PageMaskValue | src/AT24CxEeprom.h:127 | `~pageOffsetMask()` on 32 bits is 2^32 minus the page size |
| EepromDefs.StartMask | src/AT24CxEeprom.h:126-127 | `address & pageMask()` is the address less its offset in the page |
| EepromDefs.PageMasks | src/AT24CxEeprom.h:126-127 | the two masked parts are the page start (a multiple of the page size) and the offset, they add up to the address and share no bits |
| EepromDefs.AlignedMask | src/AT24CxEeprom.cpp:131 | `(pageAlignedAddress & pageOffsetMask()) == 0` holds exactly when the address is a multiple of the page size |
| EepromDefs.AddressBytes | src/AT24CxEeprom.cpp:69-70 | `highByte` then `lowByte` of a 16-bit address spell the address |
| EepromDefs.BusAddress | src/AT24CxEeprom.cpp:243-245 | the low three pins OR-ed with 0x50 lie in 0x50..0x57, keep the A2..A0 bits, and are 0x50 + the pins for the documented 0..7 |
| EepromDefs.BudgetIsProduct | src/AT24CxEeprom.cpp:138-161 | the transaction bound of a transfer is a fixed number per byte: `WRITE_RETRIES` for writes, `READ_RETRIES` address phases and one request for reads (src/AT24CxEeprom.cpp:185-219) |
| EepromDefs.BudgetAdd | src/AT24CxEeprom.cpp:118-124 | the bounds of consecutive page transfers add up to the bound of the whole range |
| EepromDefs.BudgetStep | src/AT24CxEeprom.cpp:141-161 | one retry loop of a chunk of at least one byte stays within that chunk's bound |
| Bits.LowMask | src/AT24CxEeprom.h:126 | masking with 2^k − 1 is counting modulo 2^k |
| Bits.HighMask | src/AT24CxEeprom.h:127 | masking a value below 2^n with 2^n − 2^k clears its k low bits |
| Bits.DisjointBits | src/AT24CxEeprom.h:126-127 | an offset below 2^k and a multiple of 2^k share no bits |
| Bits.Not32Complement | src/AT24CxEeprom.h:127 | `~m` on 32 bits shares no bit with `m`, and the two together are all 32 bits set |
| Chips.TotalSize | src/AT24CxEeprom.cpp:252-362 | each variant's capacity is a power of two of at most 64 KiB |
| Chips.PageSize | src/AT24CxEeprom.cpp:256-366 | each variant's page size is a power of two of at most 256 that divides its capacity |
| Chips.ChipConfig | src/AT24CxEeprom.cpp:248-366 | every variant gives a valid engine configuration |
| Segmentation.FirstSegment | src/AT24CxEeprom.cpp:111-115 | the first segment starts at the address and is 1 to `count` bytes long |
| Segmentation.FirstSegmentInPage | src/AT24CxEeprom.cpp:111-115 | the first segment is inside the address's page and, unless it is the whole range, ends at that page's end |
| Segmentation.SegmentsInPages | src/AT24CxEeprom.cpp:118-124 | every segment is non-empty, page aligned, within its page, and only the first has a non-zero offset |
| Segmentation.SegmentsChain | src/AT24CxEeprom.cpp:118-124 | the segments run in increasing order from the address to the range end with no gaps |
| Segmentation.SegmentsPartition | src/AT24CxEeprom.cpp:118-124 | the segments cover every address of the range exactly once, in order |
| Segmentation.OneSegment | src/AT24CxEeprom.cpp:115 | a range that fits the rest of its page is one segment |
| Segmentation.NextSegment | src/AT24CxEeprom.cpp:119-123 | each loop round transfers the first segment of what is left, and the next round starts at the next page's start |
| Segmentation.PageInDevice | src/AT24CxEeprom.cpp:133 | a segment of a range inside the device has its whole page inside the device |
| Segmentation.WalkStart | src/AT24CxEeprom.cpp:111-117 | the loop state before the first round is the start of the walk over `Segments` |
| Segmentation.WalkStep | src/AT24CxEeprom.cpp:131-133 | every `writeToPage`/`readFromPage` call meets the three asserted conditions |
| Segmentation.WalkNext | src/AT24CxEeprom.cpp:120-123 | the loop's updates of the page start, offset, index and length keep the walk |
| Segmentation.WalkPrefix | src/AT24CxEeprom.cpp:118-125 | the segments transferred are a prefix of `Segments`, and all of it once the range is done |
| Segmentation.WalkOn | src/AT24CxEeprom.cpp:119-123 | after one round the transferred segments are one longer and still a prefix |
| Segmentation.WrapAtTop | src/AT24CxEeprom.cpp:118-124 | as written, with the `uint16_t` page start, a range running past the top page of the address space goes on with a page segment at address 0 that meets the three page conditions (see "## Findings") |
| Segmentation.RoundsAreSegments | src/AT24CxEeprom.cpp:233-239 | for a range ending inside the 16-bit address space, the page calls the loops make as written are exactly `Segments`: the page start never wraps |
| WriteSpec.Frame | src/AT24CxEeprom.cpp:145-150 | a frame is the address, high byte first, then the data |
| WriteSpec.NoRunSuffix | src/AT24CxEeprom.cpp:141-159 | what is left of a script with no eight refusals in a row has none either, so the next retry loop succeeds |
| WriteSpec.FailsFromSuffix | src/AT24CxEeprom.cpp:141-159 | the outcomes left over are the tail of the original script, so runs of refusals are the same in both |
| WriteSpec.WriteAttempt | src/AT24CxEeprom.cpp:142-151 | one transaction carries at least one byte of a non-empty chunk, and at most the chunk |
| WriteSpec.WriteAttemptFrame | src/AT24CxEeprom.cpp:142-151 | one transaction puts exactly one frame, to the driver's bus address, on the bus and takes the next outcome |
| WriteSpec.WriteAttemptStores | src/AT24CxEeprom.cpp:142-153 | an acknowledged transaction inside a page stores exactly the bytes it carried at their address; a refused one stores nothing |
| WriteSpec.StoredMore | src/AT24CxEeprom.cpp:161 | advancing by the bytes the transport accepted extends the stored prefix |
| WriteSpec.WritePage | src/AT24CxEeprom.cpp:119-123 | one round of the range write extends the stored prefix and the transferred segments together |
| Transport.AddressedJoin | src/AT24CxEeprom.cpp:142 | traffic to the driver's bus address followed by more such traffic is all to that address |
| Transport.TransactionsMore | src/AT24CxEeprom.cpp:141-159 | one more attempt with the same frame keeps the retry loop's traffic a run of that frame |
| ReadSpec.AddressPhase | src/AT24CxEeprom.cpp:189-195 | the address phase leaves the memory alone |
| ReadSpec.AddressPhaseFrame | src/AT24CxEeprom.cpp:189-195 | the address phase sends the two address bytes to the driver's bus address and, when acknowledged, sets the chip's pointer to the address |
| ReadSpec.FetchLoads | src/AT24CxEeprom.cpp:200-201 | a request delivers the stored bytes from the pointer on, as many as asked and buffered, none when refused |
| ReadSpec.ReadClearStep | src/AT24CxEeprom.cpp:188-206 | in a clear round, a refused address phase leaves a clear round with one more refusal, still short of eight; an acknowledged one leaves its request answered and a clear script after it |
| ReadSpec.ClearAfterRefusals | src/AT24CxEeprom.cpp:188-219 | a clear script whose first `r` address phases are refused has `r` below eight and leaves a clear round with `r` refusals |
| ReadSpec.PassingRefusal | src/AT24CxEeprom.cpp:185-220 | an example, not a general property: the script acknowledge, answer, refuse, acknowledge, answer is clear, so a refusal between two rounds is retried afresh |
| ReadSpec.EmptyScriptClear | src/AT24CxEeprom.cpp:185-220 | the empty script, where every transaction succeeds, has no run of refusals and keeps every read round clear |
| ReadSpec.RoundEnds | src/AT24CxEeprom.cpp:188-214 | address phases of one address followed by one address phase or one request of the round's size form one read round |
| ReadSpec.PhasesRound | src/AT24CxEeprom.cpp:188-218 | a non-empty run of address phases of one address to the driver's bus address is a read round |
| ReadSpec.RoundJoin | src/AT24CxEeprom.cpp:185-220 | a read round appended to capped traffic to the driver's address keeps every request within the cap |
| ReadSpec.TrafficJoin | src/AT24CxEeprom.cpp:233-239 | capped traffic to the driver's address followed by more such traffic stays capped and addressed |
| AT24Cx.AT24CxEeprom.constructor | src/AT24CxEeprom.cpp:243-245 | the driver keeps the transport and stores the bus address formula |
| AT24Cx.AT24CxEeprom.MaxBulkReadQuantity | src/AT24CxEeprom.cpp:167-173 | the read request cap is at least 1 |
| AT24Cx.AT24CxEeprom.SplitAddress | src/AT24CxEeprom.cpp:111-112 | the masks split the address into a page-aligned start and its offset |
| AT24Cx.AT24CxEeprom.SendData | src/AT24CxEeprom.cpp:142-150 | one transaction is `WriteAttempt` of the transport state before it: one frame of the address and as many data bytes as the buffer takes, and the next scripted outcome |
| AT24Cx.AT24CxEeprom.WriteByte | src/AT24CxEeprom.cpp:61-84 | succeeds exactly when one of the first eight outcomes is ok; then the byte is stored at the address, otherwise nothing is stored and the last eight transactions were refused; between one and eight transactions, every one the same frame of address and byte to the driver's bus address |
| AT24Cx.AT24CxEeprom.ReadByte | src/AT24CxEeprom.cpp:86-108 | succeeds exactly when one of the first eight address phases is acknowledged; then one byte is requested and, if it arrived, it is the stored one; if none arrived the byte is unchanged and the result is still success; the traffic is one read round: at most eight address phases, then at most one request for one byte, last, all to the driver's bus address; a failure is exactly eight refused address phases; a clear script (fewer than eight refusals, then an answered request) makes it succeed with the byte arrived, and leaves a clear script |
| AT24Cx.AT24CxEeprom.TransmitChunk | src/AT24CxEeprom.cpp:141-159 | between one and eight attempts, every one the same frame to the driver's bus address; succeeds exactly when one of the first eight outcomes is ok and then stores the carried bytes; failure stores nothing and leaves the last error on the bus; consumes a prefix of the script |
| AT24Cx.AT24CxEeprom.WriteToPage | src/AT24CxEeprom.cpp:128-165 | stores a prefix of the bytes at `pageAligned + pageOffset`, all of them exactly when the result is ok; a failure is the last refused transaction after eight refusals; a script without eight refusals in a row makes it succeed; all traffic to the driver's bus address, at most eight transactions per byte |
| AT24Cx.AT24CxEeprom.WritePageRound | src/AT24CxEeprom.cpp:119-123 | one round of the range write: the next segment through `writeToPage`, after which the walk is at the next page's start whether or not the page was written; the stored prefix grows by the bytes acknowledged, to the round's end exactly when ok, and a failure stops inside the round's segment |
| AT24Cx.AT24CxEeprom.Write | src/AT24CxEeprom.cpp:110-126 | stores a prefix of the bytes at the address, all exactly when it returns true; the page writes are the range's segments in order, all of them on success, and on failure the last one attempted is the one the stored prefix stops in; a script without eight refusals in a row makes it succeed; all traffic to the driver's bus address, at most eight transactions per byte |
| AT24Cx.AT24CxEeprom.SendAddress | src/AT24CxEeprom.cpp:189-195 | one address-phase transaction to the driver's bus address that sets the chip's pointer when acknowledged |
| AT24Cx.AT24CxEeprom.SeekAddress | src/AT24CxEeprom.cpp:188-196 | up to eight address phases, all the same frame to the driver's bus address; acknowledged exactly when one of the first eight outcomes is ok, and then the pointer is at the address; otherwise exactly eight refusals, the status returned being the last one; a clear script is acknowledged and leaves its request answered |
| AT24Cx.AT24CxEeprom.FetchChunk | src/AT24CxEeprom.cpp:198-213 | one request for `min(maxBulkReadQuantity(), remaining)` bytes, copied to the buffer at the position only; none arriving is `NO_DATA_AVAILABLE` |
| AT24Cx.AT24CxEeprom.ReceiveChunk | src/AT24CxEeprom.cpp:186-218 | one read round: up to eight address phases, then at most one request, last; no data ends the attempt without a retry; a failure by refusals is exactly eight address phases and returns the last refused status; a clear script makes it succeed and leaves a clear script; between one and nine transactions |
| AT24Cx.AT24CxEeprom.ReadChunkRound | src/AT24CxEeprom.cpp:185-219 | one round of `readFromPage`'s outer loop: the bytes read grow by those delivered, which keep to the page, and the traffic stays within nine transactions per byte delivered, or per byte of the page part on failure; a clear script makes the round succeed and stays clear |
| AT24Cx.AT24CxEeprom.ReadFromPage | src/AT24CxEeprom.cpp:175-223 | fills the buffer from `at` with a prefix of the page's bytes, all exactly when ok; never asks for more than the cap; on failure the last transaction is an unanswered request (`NoDataAvailable`) or the last of eight refused address phases, whose status is returned; a clear script makes it succeed, refusals between rounds included; all traffic to the driver's bus address, at most nine transactions per byte |
| AT24Cx.AT24CxEeprom.ReadSegment | src/AT24CxEeprom.cpp:234 | the page transfer of one range-read round extends the bytes delivered into the caller's buffer, to the segment's end exactly when ok; a clear script makes it succeed and stays clear |
| AT24Cx.AT24CxEeprom.ReadPageRound | src/AT24CxEeprom.cpp:234-238 | one round of the range read: the next segment through `readFromPage`, after which the walk is at the next page's start whether or not the page was read; the bytes delivered grow to the round's end exactly when ok, a failure stops inside the round's segment, and every request stays within the cap; a clear script makes it succeed and stays clear |
| AT24Cx.AT24CxEeprom.Read | src/AT24CxEeprom.cpp:225-241 | fills the buffer's front with a prefix of the stored range, all of it exactly when it returns true; the page reads are the range's segments in order, and on failure the last one attempted is the one the delivered prefix stops in; a clear script makes it return true; memory unchanged; all traffic to the driver's bus address, at most nine transactions per byte |
| RoundTrip.WrittenReadsBack | src/test/AT24CxTest.cpp:54-74 | a range stored in full and read back into a buffer gives the written bytes, and memory outside the range is unchanged |
| RoundTrip.ByteOperations | src/test/AT24CxTest.cpp:85-102 | on a bus that acknowledges everything, a byte written is the byte read back |
| RoundTrip.WriteReadAndCompare | src/test/AT24CxTest.cpp:54-74 | whenever the range write and read both succeed, the buffer holds the written bytes; on a bus that acknowledges everything, both succeed |

## Left out

- The Arduino `TwoWire` library and the I2C bus are not part of this model. They are an oracle (`Transport.TwoWire`) with a scripted outcome per transaction and a chip whose memory and address pointer follow the AT24C data sheet's page-write and sequential-read behaviour.
- `begin()` and `begin(speed)` (src/AT24CxEeprom.cpp:52-59) only initialise the transport and set its clock; they are not modelled.
- `delay(1)` between retries is timing only and is not modelled.
- `maxBulkReadQuantity()` returns a platform macro (`SERIAL_BUFFER_SIZE` or `SIZE_MAX`); the model takes it as a configuration value of at least 1.
- The chip classes' virtual `totalSize()`/`pageSize()` are a configuration value (`Chips.ChipConfig`), not dispatch.
- The debug `ASSERT`s (src/AT24CxEeprom.cpp:62, 131-133, 178-180, 206) are preconditions.
- AT24Cx.AT24CxEeprom.Write: requires `address + count <= totalSize()`, the caller contract that the page-end `ASSERT` in `writeToPage` stands for. On the 64 KiB AT24C512 this is stronger than the source's own checks: a range past the top of the chip wraps to address 0 and passes every `ASSERT` (see "Findings"). On the smaller chips the `ASSERT` fires at the first page past the end, after the earlier pages were written.
- AT24Cx.AT24CxEeprom.Read: requires `address + count <= totalSize()` for the same reason as `Write`; the range read wraps to address 0 on the AT24C512 in the same way.
- The `uint16_t` page start of the range loops is a natural in `Write` and `Read`. Its wrap-around is modelled only in `Segmentation.RangeRounds`, and `Segmentation.RoundsAreSegments` shows that function equal to the model's segments for every range the two operations accept.
- `Transport.End` stores nothing of a frame whose transaction reports any error. A real chip that refuses a data byte (status 3, data NACK) may already have taken the bytes it acknowledged before it. The failure clauses of `WriteByte`, `TransmitChunk`, `WriteToPage` and `Write` (memory unchanged, or exactly the acknowledged prefix stored) depend on this choice.
- AT24C01 to AT24C16 take a one-byte word address on the bus (the high address bits go into the bus address), per their data sheets. The oracle reads the two address bytes the driver sends as the word address for every variant, so the model does not capture what those chips make of the driver's frames.
- Non-termination of `writeToPage` when the transport acknowledges a frame that carried no data byte is not modelled. Non-termination of `readFromPage` when data is "available" but the request returned 0 bytes is not modelled either. The transport's buffers hold at least three bytes, and a request that is answered delivers at least one byte.
- Casts in the calls to `requestFrom` (a `size_t` quantity passed on as the library's own parameter type) are not modelled. The quantity is a natural.
- AT24Cx.AT24CxEeprom.ReadByte: the source's `uint8_t &byte` in/out parameter is an input `byte` and a result `result`; an unchanged byte is `result == byte`.
- AT24Cx.AT24CxEeprom.Write: the caller's `const uint8_t *bytes` is a sequence, so the model does not capture a buffer that the transport could alias.
- AT24Cx.AT24CxEeprom.Read: the failure cases are stated as what the last bus events were (`NothingArrived` or eight refusals), not as the `ERROR` value, which the range operation discards anyway.
- The debug layer and the self-test harness under src/test are not modelled, apart from the two round trips in `RoundTrip`.
- Header and source naming mismatches (`isOk` against `isNoError`, variants not declared in the header) have no behaviour to model.

## Findings

| source | as written | input that shows it | evidently intended | confidence | as-written member | corrected member |
|---|---|---|---|---|---|---|
| src/AT24CxEeprom.cpp:120, src/AT24CxEeprom.cpp:235 | `pageAlignedAddress` is a `uint16_t`, so `pageAlignedAddress += pageSize()` after the top page of the AT24C512 wraps to 0, and the next page call at address 0 passes all three `ASSERT`s | `write(0xFFFF, {a, b}, 2)` on an AT24C512: `a` goes to 0xFFFF, then `writeToPage(0, 0, &bytes[1], 1)` stores `b` at address 0 and the call returns true; `read` does the same | a range transfer touches exactly `[address, address + count)`, and a range past the end of the chip is the caller's error | not executed | Segmentation.WrapAtTop | Segmentation.RoundsAreSegments |

=== FILE: bits.dfy ===
/** Unsigned-integer bit operations as the driver uses them on `uint32_t`
    page masks, stated on naturals so that they can be related to `%` and `/`. */
module Bits {

  /** 2 to the power k. */
  function Pow2(k: nat): (r: nat)
    ensures r >= 1
  {
    if k == 0 then 1 else Pow2(k - 1) + Pow2(k - 1)
  }

  /** n is 1, 2, 4, 8, ... */
  predicate IsPowerOfTwo(n: nat)
    decreases n
  {
    n == 1 || (n > 1 && n % 2 == 0 && IsPowerOfTwo(n / 2))
  }

  /** The powers of two the chip variants use, from a page of 8 bytes up to
      a capacity of 64 KiB, each one double the one before. */
  lemma ChipPowersOfTwo()
    ensures IsPowerOfTwo(8) && IsPowerOfTwo(16) && IsPowerOfTwo(32) && IsPowerOfTwo(64)
    ensures IsPowerOfTwo(0x80) && IsPowerOfTwo(0x100) && IsPowerOfTwo(0x200) && IsPowerOfTwo(0x400)
    ensures IsPowerOfTwo(0x800) && IsPowerOfTwo(0x1000) && IsPowerOfTwo(0x2000) && IsPowerOfTwo(0x4000)
    ensures IsPowerOfTwo(0x8000) && IsPowerOfTwo(0x10000)
  {
    assert IsPowerOfTwo(1);
    assert IsPowerOfTwo(2);
    assert IsPowerOfTwo(4);
    assert IsPowerOfTwo(8);
    assert IsPowerOfTwo(16);
    assert IsPowerOfTwo(32);
    assert IsPowerOfTwo(64);
    assert IsPowerOfTwo(0x80);
    assert IsPowerOfTwo(0x100);
    assert IsPowerOfTwo(0x200);
    assert IsPowerOfTwo(0x400);
    assert IsPowerOfTwo(0x800);
    assert IsPowerOfTwo(0x1000);
    assert IsPowerOfTwo(0x2000);
    assert IsPowerOfTwo(0x4000);
    assert IsPowerOfTwo(0x8000);
  }

  /** The exponent of a power of two. */
  function Log2(n: nat): (k: nat)
    requires IsPowerOfTwo(n)
    ensures Pow2(k) == n
    decreases n
  {
    if n == 1 then 0 else 1 + Log2(n / 2)
  }

  /** 2^32: the modulus of `uint32_t`. */
  const Word: nat := 0x1_0000_0000

  /** Bitwise AND of two unsigned integers (C's `&`), bit by bit from the least significant. */
  function And(a: nat, b: nat): nat
    decreases a
  {
    if a == 0 || b == 0 then 0
    else 2 * And(a / 2, b / 2) + (if a % 2 == 1 && b % 2 == 1 then 1 else 0)
  }

  /** Bitwise complement of a 32-bit unsigned integer (C's `~` on `uint32_t`). */
  function Not32(m: nat): (r: nat)
    requires m < Word
    ensures r < Word
  {
    Word - 1 - m
  }

  /** `~m` holds exactly the bits `m` lacks: it shares no bit with `m`, and
      the two together fill all 32 bits. */
  lemma Not32Complement(m: nat)
    requires m < Word
    ensures And(m, Not32(m)) == 0 && m + Not32(m) == Word - 1
  {
    Pow2Word();
    ComplementBits(m, Not32(m), 32);
  }

  /** Two numbers adding up to 2^k - 1 share no bit: at every position one
      of them has a 1 and the other a 0. */
  lemma {:induction false} ComplementBits(a: nat, b: nat, k: nat)
    requires a + b == Pow2(k) - 1
    ensures And(a, b) == 0
    decreases k
  {
    if k > 0 && a != 0 && b != 0 {
      var m := Pow2(k - 1);
      assert Pow2(k) == 2 * m;
      assert a % 2 + b % 2 == 1;
      assert a / 2 + b / 2 == m - 1;
      ComplementBits(a / 2, b / 2, k - 1);
    }
  }

  lemma Pow2Word()
    ensures Pow2(32) == Word
  {
    assert Pow2(8) == 256;
    assert Pow2(16) == 256 * Pow2(8) by { Pow2Add(8, 8); }
    assert Pow2(32) == Pow2(16) * Pow2(16) by { Pow2Add(16, 16); }
  }

  lemma {:induction false} Pow2Add(i: nat, j: nat)
    ensures Pow2(i + j) == Pow2(i) * Pow2(j)
    decreases i
  {
    if i > 0 {
      Pow2Add(i - 1, j);
      assert Pow2(i + j) == 2 * Pow2(i - 1 + j);
    }
  }

  lemma ModUnique(a: nat, d: nat, t: nat, x: nat)
    requires d >= 1 && x < d && a == d * t + x
    ensures a % d == x && a / d == t
  {
    var q, r := a / d, a % d;
    assert a == d * q + r;
    if t > q {
      MulMonotone(d, q + 1, t);
      assert false;
    } else if t < q {
      MulMonotone(d, t + 1, q);
      assert false;
    }
  }

  /** `x` counted modulo `m`, the way a counter of `m` positions rolls over:
      `m` subtracted until what is left is below `m`. */
  function Wrap(x: nat, m: nat): (r: nat)
    requires m >= 1
    ensures r < m
    decreases x
  {
    if x < m then x else Wrap(x - m, m)
  }

  lemma {:induction false} WrapIsMod(x: nat, m: nat)
    requires m >= 1
    ensures Wrap(x, m) == x % m
    decreases x
  {
    if x < m {
      ModUnique(x, m, 0, x);
    } else {
      WrapIsMod(x - m, m);
      DivMod(x - m, m);
      ModUnique(x, m, (x - m) / m + 1, (x - m) % m);
    }
  }

  /** Taking away what is left over gives a multiple of `m`. */
  lemma {:induction false} WrapBase(x: nat, m: nat)
    requires m >= 1
    ensures Wrap(x - Wrap(x, m), m) == 0
    decreases x
  {
    if x >= m {
      WrapBase(x - m, m);
      assert x - Wrap(x, m) == (x - m - Wrap(x - m, m)) + m;
    }
  }

  /** An offset below `m` from a multiple of `m` wraps to itself. */
  lemma {:induction false} WrapOffset(base: nat, offset: nat, m: nat)
    requires m >= 1 && Wrap(base, m) == 0 && offset < m
    ensures Wrap(base + offset, m) == offset
    decreases base
  {
    if base >= m {
      WrapOffset(base - m, offset, m);
    }
  }

  lemma DivMod(a: nat, d: nat)
    requires d >= 1
    ensures a == d * (a / d) + a % d && a % d < d
  {
  }

  lemma MulMonotone(d: nat, u: nat, v: nat)
    requires u <= v
    ensures d * u <= d * v
  {
    assert d * v == d * u + d * (v - u);
  }

  /** Halving `a` and wrapping modulo `m` recovers `a` wrapped modulo `2m`
      but for its lowest bit. */
  lemma {:induction false} HalveWrap(a: nat, m: nat)
    requires m >= 1
    ensures Wrap(a, 2 * m) == 2 * Wrap(a / 2, m) + a % 2
    decreases a
  {
    if a >= 2 * m {
      HalveWrap(a - 2 * m, m);
      assert (a - 2 * m) / 2 == a / 2 - m && (a - 2 * m) % 2 == a % 2;
    }
  }

  /** Every number wraps to 0 modulo 1. */
  lemma WrapOne(a: nat)
    ensures Wrap(a, 1) == 0
  {
    WrapIsMod(a, 1);
  }

  /** Masking with 2^k - 1 keeps the k low bits: `a` wrapped modulo 2^k. */
  lemma {:induction false} LowMask(a: nat, k: nat)
    ensures And(a, Pow2(k) - 1) == Wrap(a, Pow2(k))
    decreases k
  {
    if k == 0 {
      WrapOne(a);
    } else if a != 0 {
      var m := Pow2(k - 1);
      assert Pow2(k) == 2 * m;
      var b := 2 * m - 1;
      assert b % 2 == 1 && b / 2 == m - 1;
      LowMask(a / 2, k - 1);
      HalveWrap(a, m);
    }
  }

  /** Powers of two grow with the exponent. */
  lemma {:induction false} Pow2Le(k: nat, n: nat)
    requires k <= n
    ensures Pow2(k) <= Pow2(n)
    decreases n
  {
    if k < n {
      Pow2Le(k, n - 1);
    }
  }

  /** Masking a value below 2^n with 2^n - 2^k clears its k low bits. */
  lemma {:induction false} HighMask(a: nat, n: nat, k: nat)
    requires k <= n && a < Pow2(n)
    ensures Pow2(k) <= Pow2(n)
    ensures And(a, Pow2(n) - Pow2(k)) == a - Wrap(a, Pow2(k))
    decreases k, 1
  {
    Pow2Le(k, n);
    if k == 0 {
      HighMaskAll(a, n);
    } else if n == k {
      HighMaskNone(a, 0, Pow2(k));
    } else if a != 0 {
      HighMaskHalf(a, n, k);
    }
  }

  /** The induction step of HighMask: halve `a` and the mask. */
  lemma {:induction false} HighMaskHalf(a: nat, n: nat, k: nat)
    requires 0 < k < n && 0 < a < Pow2(n) && Pow2(k) <= Pow2(n)
    ensures And(a, Pow2(n) - Pow2(k)) == a - Wrap(a, Pow2(k))
    decreases k, 0
  {
    Pow2Halves(a, n, k);
    HighMask(a / 2, n - 1, k - 1);
    HighMaskStep(a, Pow2(k - 1), Pow2(n - 1) - Pow2(k - 1), Pow2(n) - Pow2(k), Pow2(k));
  }

  /** Halving a value below 2^n, the mask 2^n - 2^k and the power 2^k. */
  lemma Pow2Halves(a: nat, n: nat, k: nat)
    requires 0 < k < n && a < Pow2(n)
    ensures a / 2 < Pow2(n - 1) && Pow2(k - 1) < Pow2(n - 1)
    ensures Pow2(n) - Pow2(k) == 2 * (Pow2(n - 1) - Pow2(k - 1)) && Pow2(k) == 2 * Pow2(k - 1)
  {
    Pow2Le(k, n - 1);
  }

  /** Masking a value below 2^n with 2^n - 1 keeps all of it. */
  lemma HighMaskAll(a: nat, n: nat)
    requires a < Pow2(n)
    ensures And(a, Pow2(n) - Pow2(0)) == a - Wrap(a, Pow2(0))
  {
    LowMask(a, n);
    WrapOne(a);
  }

  /** Masking with 0 keeps nothing. */
  lemma HighMaskNone(a: nat, mask: nat, w: nat)
    requires mask == 0 && a < w
    ensures And(a, mask) == a - Wrap(a, w)
  {
  }

  /** One induction step of HighMask: the lowest bit of the mask 2h is clear. */
  lemma HighMaskStep(a: nat, m: nat, h: nat, mask: nat, w: nat)
    requires a != 0 && h != 0 && m >= 1 && mask == 2 * h && w == 2 * m
    requires And(a / 2, h) == a / 2 - Wrap(a / 2, m)
    ensures And(a, mask) == a - Wrap(a, w)
  {
    assert (2 * h) / 2 == h && (2 * h) % 2 == 0;
    HalveWrap(a, m);
  }

  /** Bits below 2^k and bits of a multiple of 2^k never overlap, in either order. */
  lemma {:induction false} DisjointBits(x: nat, y: nat, k: nat)
    requires x < Pow2(k) && Wrap(y, Pow2(k)) == 0
    ensures And(x, y) == 0 && And(y, x) == 0
    decreases k
  {
    if k > 0 && x != 0 && y != 0 {
      var m := Pow2(k - 1);
      assert Pow2(k) == 2 * m;
      HalveWrap(y, m);
      DisjointBits(x / 2, y / 2, k - 1);
    }
  }

  /** A multiple of `m` below another multiple of `m` is at least `m` below it. */
  lemma {:induction false} WrapAligned(a: nat, t: nat, m: nat)
    requires m >= 1 && Wrap(a, m) == 0 && Wrap(t, m) == 0 && a < t
    ensures a + m <= t
    decreases a
  {
    if a >= m {
      WrapAligned(a - m, t - m, m);
    }
  }

  /** A power of two at most 2^j has exponent at most j. */
  lemma {:induction false} Log2Bound(n: nat, j: nat)
    requires IsPowerOfTwo(n) && n <= Pow2(j)
    ensures Log2(n) <= j
    decreases n
  {
    if n > 1 {
      Log2Bound(n / 2, j - 1);
    }
  }
}

=== FILE: chips.dfy ===
/** The chip variants: each fixes only a capacity and a page size. */
module Chips {
  import opened Bits
  import opened EepromDefs

  datatype Chip =
    | AT24C01 | AT24C02 | AT24C04 | AT24C08 | AT24C16
    | AT24C32 | AT24C64 | AT24C128 | AT24C256 | AT24C512

  /** `totalSize()` of each variant, in bytes. */
  function TotalSize(chip: Chip): (size: nat)
    ensures IsPowerOfTwo(size) && size <= 0x10000
  {
    ChipPowersOfTwo();
    match chip
    case AT24C01 => 0x80
    case AT24C02 => 0x100
    case AT24C04 => 0x200
    case AT24C08 => 0x400
    case AT24C16 => 0x800
    case AT24C32 => 0x1000
    case AT24C64 => 0x2000
    case AT24C128 => 0x4000
    case AT24C256 => 0x8000
    case AT24C512 => 0x10000
  }

  /** `pageSize()` of each variant, in bytes: a power of two dividing the capacity. */
  function PageSize(chip: Chip): (size: nat)
    ensures IsPowerOfTwo(size) && size <= 256
    ensures TotalSize(chip) % size == 0
  {
    ChipPowersOfTwo();
    match chip
    case AT24C01 | AT24C02 => 8
    case AT24C04 | AT24C08 | AT24C16 => 16
    case AT24C32 | AT24C64 => 32
    case AT24C128 | AT24C256 => 64
    case AT24C512 => 128
  }

  /** The engine configuration of a variant, given the transport's bulk-read cap. */
  function ChipConfig(chip: Chip, maxBulkRead: nat): (c: Config)
    requires maxBulkRead >= 1
    ensures ValidConfig(c) && c.totalSize == TotalSize(chip) && c.pageSize == PageSize(chip)
  {
    WrapIsMod(TotalSize(chip), PageSize(chip));
    Config(TotalSize(chip), PageSize(chip), maxBulkRead)
  }
}

=== FILE: device.dfy ===
/** The memory array of the EEPROM chip as the bus sees it: an address
    pointer that wraps around at the end of the array, a page write that
    wraps around inside its page, and a sequential read. */
module Device {
  import opened Bits
  import opened EepromDefs

  /** `s` with the elements from `at` on replaced by `d`, one element after
      the other. */
  function Splice<T>(s: seq<T>, at: nat, d: seq<T>): (r: seq<T>)
    requires at + |d| <= |s|
    ensures |r| == |s|
    decreases |d|
  {
    if |d| == 0 then s else Splice(s[at := d[0]], at + 1, d[1..])
  }

  /** The splice is the part of `s` before `at`, then `d`, then the part of
      `s` after `d`. */
  lemma {:induction false} SpliceDef<T>(s: seq<T>, at: nat, d: seq<T>)
    requires at + |d| <= |s|
    ensures Splice(s, at, d) == s[..at] + d + s[at + |d|..]
    decreases |d|
  {
    if d != [] {
      var s' := s[at := d[0]];
      SpliceDef(s', at + 1, d[1..]);
      assert s'[..at + 1] == s[..at] + [d[0]];
      assert s'[at + |d|..] == s[at + |d|..];
      assert [d[0]] + d[1..] == d;
    }
  }

  /** The spliced sequence holds `d` at `at` and the old elements elsewhere. */
  lemma SpliceContents<T>(s: seq<T>, at: nat, d: seq<T>)
    requires at + |d| <= |s|
    ensures var r := Splice(s, at, d);
      && r[at..at + |d|] == d
      && r[..at] == s[..at] && r[at + |d|..] == s[at + |d|..]
  {
    SpliceDef(s, at, d);
  }

  lemma SpliceEmpty<T>(s: seq<T>, at: nat)
    requires at <= |s|
    ensures Splice(s, at, []) == s
  {
  }

  /** Two splices side by side are one splice of the concatenation. */
  lemma SpliceSplice<T>(s: seq<T>, at: nat, d: seq<T>, e: seq<T>)
    requires at + |d| + |e| <= |s|
    ensures Splice(Splice(s, at, d), at + |d|, e) == Splice(s, at, d + e)
  {
    SpliceDef(s, at, d);
    SpliceDef(s, at, d + e);
    var m := Splice(s, at, d);
    SpliceDef(m, at + |d|, e);
    assert m[..at + |d|] == s[..at] + d;
    assert m[at + |d| + |e|..] == s[at + |d| + |e|..];
  }

  /** `s` with `i` elements of `m` from `lo` on spliced in at `at`, then
      the `n` elements of `m` after them (from `start == lo + i`) spliced in
      right behind (at `pos == at + i`), is `s` with all `total == i + n`
      of them spliced in at `at`. */
  lemma SpliceGrow<T>(s: seq<T>, at: nat, m: seq<T>, lo: nat, i: nat, pos: nat, start: nat, n: nat,
                      total: nat, before: seq<T>, after: seq<T>)
    requires pos == at + i && start == lo + i && total == i + n
    requires lo + total <= |m| && at + total <= |s|
    requires before == Splice(s, at, m[lo..lo + i])
    requires after == Splice(before, pos, m[start..start + n])
    ensures after == Splice(s, at, m[lo..lo + total])
  {
    SpliceSplice(s, at, m[lo..lo + i], m[start..start + n]);
    assert m[lo..lo + i] + m[start..start + n] == m[lo..lo + total];
  }

  /** Writing `d[j]` just after the first `j` elements of `d` spliced in at
      `at` splices in the first `j + 1`. */
  lemma SpliceNext<T>(s: seq<T>, at: nat, d: seq<T>, j: nat, before: seq<T>, after: seq<T>)
    requires j < |d| && at + |d| <= |s|
    requires before == Splice(s, at, d[..j]) && after == before[at + j := d[j]]
    ensures after == Splice(s, at, d[..j + 1])
  {
    SpliceDef(s, at, d[..j]);
    SpliceDef(s, at, d[..j + 1]);
    assert d[..j + 1] == d[..j] + [d[j]];
  }

  /** Stores `data` at the page starting at `base`, from `offset` on, rolling
      over to the start of the page at its end (the chip's address counter
      only counts within a page); returns the new memory and the offset
      after the last byte. */
  function PageWrite(mem: seq<uint8>, pageSize: nat, base: nat, offset: nat, data: seq<uint8>): (r: (seq<uint8>, nat))
    requires pageSize >= 1 && offset < pageSize && |mem| > 0
    ensures |r.0| == |mem| && r.1 < pageSize
    decreases |data|
  {
    if |data| == 0 then (mem, offset)
    else
      var a := Wrap(base + offset, |mem|);
      var next := if offset + 1 == pageSize then 0 else offset + 1;
      PageWrite(mem[a := data[0]], pageSize, base, next, data[1..])
  }

  /** A page write that stays inside its page and the array stores the data
      exactly where it is addressed. */
  lemma {:induction false} PageWriteInPage(mem: seq<uint8>, pageSize: nat, base: nat, offset: nat, data: seq<uint8>)
    requires pageSize >= 1 && offset < pageSize && |mem| > 0
    requires offset + |data| <= pageSize && base + offset + |data| <= |mem|
    ensures PageWrite(mem, pageSize, base, offset, data).0 == Splice(mem, base + offset, data)
    decreases |data|
  {
    if data != [] {
      var at := base + offset;
      var m := mem[at := data[0]];
      if |data| == 1 {
        var next := if offset + 1 == pageSize then 0 else offset + 1;
        assert PageWrite(m, pageSize, base, next, []).0 == m;
        assert m == Splice(mem, at, data);
      } else {
        PageWriteInPage(m, pageSize, base, offset + 1, data[1..]);
        assert Splice(m, at + 1, data[1..]) == Splice(mem, at, data);
      }
    }
  }

  /** `n` bytes read one after the other from `at`, rolling over from the
      last address of the array to address 0. */
  function SeqRead(mem: seq<uint8>, at: nat, n: nat): (r: seq<uint8>)
    requires at < |mem|
    ensures |r| == n
    decreases n
  {
    if n == 0 then []
    else [mem[at]] + SeqRead(mem, if at + 1 == |mem| then 0 else at + 1, n - 1)
  }

  /** A sequential read that does not reach the end of the array returns the
      bytes stored at the addresses read. */
  lemma {:induction false} SeqReadInside(mem: seq<uint8>, at: nat, n: nat)
    requires at < |mem| && at + n <= |mem|
    ensures SeqRead(mem, at, n) == mem[at..at + n]
    decreases n
  {
    if n > 1 {
      SeqReadInside(mem, at + 1, n - 1);
      assert mem[at..at + n] == [mem[at]] + mem[at + 1..at + n];
    }
  }
}

=== FILE: eeprom_defs.dfy ===
/** The declarations of the driver class that carry no state: error codes,
    retry limits, the page masks, the bus-address formula and the
    configuration the engine is written against. */
module EepromDefs {
  import opened Bits

  /** `uint8_t`. */
  newtype uint8 = x: int | 0 <= x < 256

  /** The driver's `ERROR` enumeration (an `uint8_t`). The bus transport's
      completion status is cast to it unchanged, so every byte value can occur. */
  newtype Error = x: int | 0 <= x < 256

  const WireNoError: Error := 0
  const WireAddrTransmissionNack: Error := 2
  const WireDataTransmissionNack: Error := 3
  const WireFinishUpErr: Error := 4
  /** Address phase acknowledged, but the device returned no byte. */
  const NoDataAvailable: Error := 5

  predicate IsOk(error: Error) {
    error == WireNoError
  }

  /** Retry ceilings of one bus transaction (the class constants, which
      shadow the file-level constants inside the member functions). */
  const WriteRetries: nat := 8
  const ReadRetries: nat := 8

  /** The codes are distinct and only `WireNoError` means success. */
  lemma ErrorCodes()
    ensures IsOk(WireNoError)
    ensures !IsOk(WireAddrTransmissionNack) && !IsOk(WireDataTransmissionNack)
    ensures !IsOk(WireFinishUpErr) && !IsOk(NoDataAvailable)
    ensures |{WireNoError, WireAddrTransmissionNack, WireDataTransmissionNack,
              WireFinishUpErr, NoDataAvailable}| == 5
    ensures WriteRetries >= 1 && ReadRetries >= 1
  {
  }

  /** The most transactions moving `k` bytes can take when every round of a
      transfer moves at least one byte in at most `per` transactions:
      `WriteRetries` per byte for a write, `ReadRetries` address phases and
      one request per byte for a read. Counted up one byte at a time so that
      the products stay out of the proofs that only add budgets up. */
  function Budget(per: nat, k: nat): nat
    decreases k
  {
    if k == 0 then 0 else Budget(per, k - 1) + per
  }

  /** The budget is `per` transactions per byte. */
  lemma {:induction false} BudgetIsProduct(per: nat, k: nat)
    ensures Budget(per, k) == per * k
    decreases k
  {
    if k > 0 {
      BudgetIsProduct(per, k - 1);
      assert per * k == per * (k - 1) + per;
    }
  }

  /** The budgets of two runs of bytes add up to that of both. */
  lemma {:induction false} BudgetAdd(per: nat, a: nat, b: nat)
    ensures Budget(per, a + b) == Budget(per, a) + Budget(per, b)
    decreases b
  {
    if b > 0 {
      BudgetAdd(per, a, b - 1);
    }
  }

  /** A round that moves at least one byte fits one round's transactions. */
  lemma BudgetStep(per: nat, k: nat, n: nat)
    requires n >= 1
    ensures Budget(per, k) + per <= Budget(per, k + n)
  {
    BudgetAdd(per, k, n);
    BudgetAdd(per, 1, n - 1);
  }

  function Min(a: nat, b: nat): (m: nat)
    ensures m <= a && m <= b && (m == a || m == b)
  {
    if a < b then a else b
  }

  /** The chip parameters the engine is written against: capacity, page
      size and the largest read request the transport can take at once. */
  datatype Config = Config(totalSize: nat, pageSize: nat, maxBulkRead: nat)

  /** A page size is a power of two that fits `uint8_t` page offsets; the
      capacity is a whole number of pages addressable with 16 bits. */
  predicate ValidConfig(c: Config) {
    && IsPowerOfTwo(c.pageSize) && c.pageSize <= 256
    && 0 < c.totalSize <= 0x10000 && Wrap(c.totalSize, c.pageSize) == 0
    && c.maxBulkRead >= 1
  }

  /** `pageOffsetMask()`: selects the offset of an address within its page. */
  function PageOffsetMask(pageSize: nat): nat
    requires 1 <= pageSize <= 256
  {
    pageSize - 1
  }

  /** `pageMask()`: the 32-bit complement of the offset mask. */
  function PageMask(pageSize: nat): nat
    requires 1 <= pageSize <= 256
  {
    Not32(PageOffsetMask(pageSize))
  }

  /** The offset mask keeps the offset of an address in its page. */
  lemma OffsetMask(address: nat, pageSize: nat)
    requires IsPowerOfTwo(pageSize) && pageSize <= 256
    ensures And(address, PageOffsetMask(pageSize)) == Wrap(address, pageSize)
  {
    LowMask(address, Log2(pageSize));
  }

  /** The page mask is 2^32 less the page size. */
  lemma PageMaskValue(pageSize: nat)
    requires 1 <= pageSize <= 256
    ensures PageMask(pageSize) == Word - pageSize
  {
  }

  /** A page size has at most eight bits of offset. */
  lemma PageBits(pageSize: nat)
    requires IsPowerOfTwo(pageSize) && pageSize <= 256
    ensures Log2(pageSize) <= 8
  {
    assert Pow2(8) == 256;
    Log2Bound(pageSize, 8);
  }

  /** The page mask keeps the start of the page holding an address. */
  lemma StartMask(address: nat, pageSize: nat)
    requires IsPowerOfTwo(pageSize) && pageSize <= 256 && address < Word
    ensures And(address, PageMask(pageSize)) == address - Wrap(address, pageSize)
  {
    var k := Log2(pageSize);
    PageBits(pageSize);
    Pow2Word();
    HighMask(address, 32, k);
    PageMaskValue(pageSize);
  }

  /** For a power-of-two page size the masks split an address into its page
      start (a multiple of the page size) and its offset in that page. */
  lemma PageMasks(address: nat, pageSize: nat)
    requires IsPowerOfTwo(pageSize) && pageSize <= 256 && address < Word
    ensures And(address, PageOffsetMask(pageSize)) == Wrap(address, pageSize)
    ensures And(address, PageMask(pageSize)) == address - Wrap(address, pageSize)
    ensures Wrap(address - Wrap(address, pageSize), pageSize) == 0
    ensures And(address, PageMask(pageSize)) + And(address, PageOffsetMask(pageSize)) == address
    ensures And(And(address, PageMask(pageSize)), And(address, PageOffsetMask(pageSize))) == 0
  {
    OffsetMask(address, pageSize);
    StartMask(address, pageSize);
    WrapBase(address, pageSize);
    DisjointBits(Wrap(address, pageSize), address - Wrap(address, pageSize), Log2(pageSize));
  }

  /** An address is page aligned exactly when masking out its page start leaves nothing. */
  lemma AlignedMask(address: nat, pageSize: nat)
    requires IsPowerOfTwo(pageSize) && pageSize <= 256
    ensures And(address, PageOffsetMask(pageSize)) == 0 <==> Wrap(address, pageSize) == 0
  {
    OffsetMask(address, pageSize);
  }

  /** `highByte`/`lowByte` of a 16-bit address. */
  function HighByte(address: nat): uint8
    requires address < 0x10000
  {
    (address / 256) as uint8
  }

  /** `lowByte`: the low eight bits, also of the `int` the transport's `read` returns. */
  function LowByte(v: int): uint8 {
    (v % 256) as uint8
  }

  /** The two address bytes, high byte first, spell the address. */
  lemma AddressBytes(address: nat)
    requires address < 0x10000
    ensures HighByte(address) as int * 256 + LowByte(address) as int == address
  {
  }

  /** The stored 7-bit bus address: the fixed high nibble 0101 and the A2..A0 pins. */
  function BusAddress(deviceAddress: bv8): (r: bv8)
    ensures 0x50 <= r <= 0x57
    ensures r & 0x07 == deviceAddress & 0x07
    ensures deviceAddress <= 7 ==> r == 0x50 + deviceAddress
  {
    (deviceAddress & 0x07) | 0x50
  }
}

=== FILE: engine.dfy ===
/** The driver class: single-byte and range reads and writes over the I2C
    transport, each bus transaction retried a bounded number of times, and
    range transfers cut at page boundaries. */
module AT24Cx {
  import opened Bits
  import opened EepromDefs
  import opened Segmentation
  import opened Device
  import opened Transport
  import opened WriteSpec
  import opened ReadSpec

  class AT24CxEeprom {
    /** The chip variant's capacity and page size, and the platform's bulk
        read limit. */
    const cfg: Config
    /** The 7-bit bus address the driver talks to. */
    const deviceAddress: bv8
    /** The transport, held by reference. */
    const wire: TwoWire

    /** The configuration is that of the chip behind the transport. */
    predicate Valid()
      reads wire
    {
      && ValidConfig(cfg)
      && Transport.Valid(wire.link)
      && wire.link.pageSize == cfg.pageSize && |wire.link.mem| == cfg.totalSize
      && 0x50 <= deviceAddress <= 0x57
    }

    /** The driver for the chip whose address pins are `deviceAddress`. */
    constructor (wire: TwoWire, deviceAddress: bv8, cfg: Config)
      requires ValidConfig(cfg) && Transport.Valid(wire.link)
      requires wire.link.pageSize == cfg.pageSize && |wire.link.mem| == cfg.totalSize
      ensures this.wire == wire && this.cfg == cfg
      ensures this.deviceAddress == BusAddress(deviceAddress)
      ensures Valid()
    {
      this.wire := wire;
      this.cfg := cfg;
      this.deviceAddress := BusAddress(deviceAddress);
    }

    /** The largest number of bytes one read request may ask for. */
    function MaxBulkReadQuantity(): (n: nat)
      ensures ValidConfig(cfg) ==> n >= 1
    {
      cfg.maxBulkRead
    }

    /** The start of the page holding `address` and the offset of `address`
        in it, as the range operations take them apart with the page masks. */
    method SplitAddress(address: nat) returns (pageAligned: nat, pageOffset: nat)
      requires Valid() && address < 0x10000
      ensures pageAligned + pageOffset == address
      ensures Wrap(pageAligned, cfg.pageSize) == 0 && pageOffset == Wrap(address, cfg.pageSize)
    {
      PageMasks(address, cfg.pageSize);
      pageAligned := And(address, PageMask(cfg.pageSize));
      pageOffset := And(address, PageOffsetMask(cfg.pageSize));
    }

    /** One write transaction: the two address bytes, high byte first, then
        as many bytes of `data` as the transmit buffer takes after them.
        `n` is the number of data bytes the buffer took. */
    method SendData(address: nat, data: seq<uint8>) returns (error: Error, n: nat)
      requires Valid() && address < 0x10000
      modifies wire
      ensures Valid()
      ensures Outcome(wire.link, n, error) == WriteAttempt(old(wire.link), deviceAddress, address, data)
    {
      wire.BeginTransmission(deviceAddress);
      var k := wire.Write(HighByte(address));
      k := wire.Write(LowByte(address));
      n := wire.WriteBytes(data);
      assert wire.tx == Frame(address, data[..n]);
      error := wire.EndTransmission();
    }

    /** Write one byte: up to `WriteRetries` transactions, each the two
        address bytes and the data byte, until one is acknowledged. */
    method WriteByte(address: nat, b: uint8) returns (ok: bool)
      requires Valid() && address < cfg.totalSize
      modifies wire
      ensures Valid()
      ensures ok <==> !AllFail(old(wire.link.script), WriteRetries)
      ensures ok ==> wire.link.mem == old(wire.link.mem)[address := b]
      ensures !ok ==> wire.link.mem == old(wire.link.mem) && Refused(wire.link.log, WriteRetries)
      ensures |old(wire.link.log)| < |wire.link.log| <= |old(wire.link.log)| + WriteRetries
      ensures old(wire.link.script) == [] ==> ok && wire.link.script == []
      ensures old(wire.link.log) <= wire.link.log
      ensures Transactions(wire.link.log, |old(wire.link.log)|, deviceAddress, Frame(address, [b]))
    {
      ghost var l0 := wire.link;
      WrapBase(address, cfg.pageSize);
      var i := 0;
      while i < WriteRetries
        invariant Valid() && i <= WriteRetries
        invariant AllFail(l0.script, i) && wire.link.script == l0.script[i..]
        invariant wire.link.mem == l0.mem
        invariant |wire.link.log| == |l0.log| + i && Refused(wire.link.log, i)
        invariant l0.log <= wire.link.log
        invariant Transactions(wire.link.log, |l0.log|, deviceAddress, Frame(address, [b]))
      {
        ghost var l := wire.link;
        var error, n := SendData(address, [b]);
        WriteAttemptFrame(l, deviceAddress, address, [b]);
        WriteAttemptStores(l, deviceAddress, address - Wrap(address, cfg.pageSize), Wrap(address, cfg.pageSize), [b]);
        assert [b][..n] == [b];
        TransactionsMore(l.log, |l0.log|, deviceAddress, Frame(address, [b]), Sent(deviceAddress, Frame(address, [b]), error));
        if IsOk(error) {
          assert Splice(l.mem, address, [b]) == l.mem[address := b];
          return true;
        }
        RefusedMore(l.log, i, Sent(deviceAddress, Frame(address, [b]), error));
        i := i + 1;
      }
      return false;
    }

    /** Read one byte: up to `ReadRetries` address phases; once one is
        acknowledged, request one byte and take it if it arrived. Reports
        success as soon as the address phase succeeded, even when no byte
        arrived; the byte is then left as it was. `received` is the number
        of bytes that arrived. */
    method ReadByte(address: nat, byte: uint8) returns (ok: bool, result: uint8, ghost received: nat)
      requires Valid() && address < 0x10000
      modifies wire
      ensures Valid() && wire.link.mem == old(wire.link.mem)
      ensures ok <==> !AllFail(old(wire.link.script), ReadRetries)
      ensures ok ==> received <= 1 && |wire.link.log| > 0
                     && wire.link.log[|wire.link.log| - 1] == Requested(deviceAddress, 1, received)
      ensures ok && received == 1 ==> result == wire.link.mem[Wrap(address, cfg.totalSize)]
      ensures received == 0 ==> result == byte
      ensures !ok ==> received == 0 && Refused(wire.link.log, ReadRetries)
      ensures !ok ==> |wire.link.log| == |old(wire.link.log)| + ReadRetries
      ensures old(wire.link.script) == [] ==> ok && received == 1 && wire.link.script == []
      ensures ReadClear(old(wire.link.script), 0) ==> ok && received == 1 && ReadClear(wire.link.script, 0)
      ensures old(wire.link.log) <= wire.link.log
      ensures |old(wire.link.log)| < |wire.link.log| <= |old(wire.link.log)| + ReadRetries + 1
      ensures ReadRound(wire.link.log, |old(wire.link.log)|, deviceAddress, address, 1)
    {
      ghost var l0 := wire.link;
      var error := SeekAddress(address);
      if IsOk(error) {
        ghost var la := wire.link;
        FetchLoads(wire.link, deviceAddress, 1);
        var n := wire.RequestFrom(deviceAddress, 1);
        RoundEnds(la.log, |l0.log|, deviceAddress, address, 1, Requested(deviceAddress, 1, n));
        var available := wire.Available();
        result := byte;
        if available > 0 {
          var data := wire.Read();
          result := LowByte(data);
        }
        return true, result, n;
      }
      PhasesRound(wire.link.log, |l0.log|, deviceAddress, address, 1);
      return false, byte, 0;
    }

    /** The retry loop of `writeToPage` for the bytes from `address` on: up
        to `WriteRetries` transactions, each the two address bytes and as
        many bytes of `chunk` as the transmit buffer takes, until one is
        acknowledged. `n` is the number of bytes the last transaction carried. */
    method TransmitChunk(pageAligned: nat, offset: nat, chunk: seq<uint8>) returns (error: Error, n: nat)
      requires Valid() && pageAligned + offset < 0x10000 && |chunk| > 0
      requires Wrap(pageAligned, cfg.pageSize) == 0 && offset + |chunk| <= cfg.pageSize
      requires pageAligned + offset + |chunk| <= cfg.totalSize
      modifies wire
      ensures Valid() && 1 <= n <= |chunk|
      ensures IsOk(error) <==> !AllFail(old(wire.link.script), WriteRetries)
      ensures IsOk(error) ==> wire.link.mem == Splice(old(wire.link.mem), pageAligned + offset, chunk[..n])
      ensures !IsOk(error) ==> wire.link.mem == old(wire.link.mem) && StoppedAt(wire.link, error)
                               && Refused(wire.link.log, WriteRetries)
      ensures old(wire.link.script) == [] ==> wire.link.script == []
      ensures SuffixOf(wire.link.script, old(wire.link.script))
      ensures |old(wire.link.log)| < |wire.link.log| <= |old(wire.link.log)| + WriteRetries
      ensures old(wire.link.log) <= wire.link.log
      ensures Transactions(wire.link.log, |old(wire.link.log)|, deviceAddress, Frame(pageAligned + offset, chunk[..n]))
    {
      ghost var l0 := wire.link;
      ghost var carried := Min(|chunk|, l0.bufferLength - 2);
      error, n := WireNoError, 0;
      var w := 0;
      while w < WriteRetries
        invariant Valid() && w <= WriteRetries && wire.link.mem == l0.mem
        invariant wire.link.bufferLength == l0.bufferLength
        invariant AllFail(l0.script, w) && wire.link.script == l0.script[w..]
        invariant |wire.link.log| == |l0.log| + w && Refused(wire.link.log, w)
        invariant w > 0 ==> !IsOk(error) && StoppedAt(wire.link, error) && n == carried
        invariant l0.log <= wire.link.log
        invariant Transactions(wire.link.log, |l0.log|, deviceAddress, Frame(pageAligned + offset, chunk[..carried]))
      {
        ghost var l := wire.link;
        error, n := SendData(pageAligned + offset, chunk);
        WriteAttemptFrame(l, deviceAddress, pageAligned + offset, chunk);
        WriteAttemptStores(l, deviceAddress, pageAligned, offset, chunk);
        TransactionsMore(l.log, |l0.log|, deviceAddress, Frame(pageAligned + offset, chunk[..carried]),
                         Sent(deviceAddress, Frame(pageAligned + offset, chunk[..n]), error));
        if IsOk(error) {
          ConsumeSuffix(l, l0.script);
          return;
        }
        RefusedMore(l.log, w, Sent(deviceAddress, Frame(pageAligned + offset, chunk[..n]), error));
        w := w + 1;
      }
    }

    /** `writeToPage`: store `bytes` from `pageOffset` on in the page at
        `pageAligned`, chunk by chunk as the transmit buffer allows, up to
        the first chunk whose transactions are all refused. `stored` counts
        the bytes the chip acknowledged. */
    method WriteToPage(pageAligned: nat, pageOffset: nat, bytes: seq<uint8>) returns (error: Error, ghost stored: nat)
      requires Valid() && pageAligned < 0x10000 && pageOffset < 256
      requires Wrap(pageAligned, cfg.pageSize) == 0 && pageOffset + |bytes| <= cfg.pageSize
      requires pageAligned + cfg.pageSize <= cfg.totalSize
      modifies wire
      ensures Valid()
      ensures stored <= |bytes| && (IsOk(error) <==> stored == |bytes|)
      ensures Stored(old(wire.link.mem), pageAligned + pageOffset, bytes, stored, wire.link.mem)
      ensures !IsOk(error) ==> StoppedAt(wire.link, error) && Refused(wire.link.log, WriteRetries)
      ensures SuffixOf(wire.link.script, old(wire.link.script))
      ensures NoRun(old(wire.link.script), WriteRetries) ==> IsOk(error)
      ensures old(wire.link.log) <= wire.link.log && AddressedTo(wire.link.log, |old(wire.link.log)|, deviceAddress)
      ensures |wire.link.log| <= |old(wire.link.log)| + Budget(WriteRetries, |bytes|)
    {
      ghost var m0, s0, log0 := wire.link.mem, wire.link.script, wire.link.log;
      ghost var start := pageAligned + pageOffset;
      error := WireNoError;
      stored := 0;
      var bytesWritten := 0;
      assert bytes[..0] == [];
      SpliceEmpty(m0, start);
      while |bytes| - bytesWritten > 0 && IsOk(error)
        invariant Valid() && bytesWritten <= |bytes| && stored <= |bytes|
        invariant IsOk(error) ==> stored == bytesWritten
        invariant !IsOk(error) ==> stored < |bytes| && StoppedAt(wire.link, error)
                                   && Refused(wire.link.log, WriteRetries)
        invariant Stored(m0, start, bytes, stored, wire.link.mem)
        invariant SuffixOf(wire.link.script, s0) && (NoRun(s0, WriteRetries) ==> IsOk(error))
        invariant log0 <= wire.link.log && AddressedTo(wire.link.log, |log0|, deviceAddress)
        invariant IsOk(error) ==> |wire.link.log| <= |log0| + Budget(WriteRetries, bytesWritten)
        invariant !IsOk(error) ==> |wire.link.log| <= |log0| + Budget(WriteRetries, |bytes|)
        decreases |bytes| - bytesWritten
      {
        ghost var lb := wire.link;
        if NoRun(s0, WriteRetries) {
          NoRunSuffix(lb.script, s0, WriteRetries);
        }
        var n;
        error, n := TransmitChunk(pageAligned, pageOffset + bytesWritten, bytes[bytesWritten..]);
        SuffixTrans(wire.link.script, lb.script, s0);
        AddressedJoin(log0, lb.log, wire.link.log, deviceAddress);
        if IsOk(error) {
          SpliceMore(m0, start, bytes, bytesWritten, n);
          BudgetStep(WriteRetries, bytesWritten, n);
          stored := bytesWritten + n;
        } else {
          BudgetStep(WriteRetries, bytesWritten, |bytes| - bytesWritten);
          assert bytesWritten + (|bytes| - bytesWritten) == |bytes|;
        }
        bytesWritten := bytesWritten + n;
      }
    }

    /** One round of the range write's loop: `WriteToPage` for the walk's
        next segment, after which the walk moves to the start of the
        following page whether or not the page was written. `stored` counts
        the bytes of the range the chip holds so far; `s0` and `log0` are
        the script and the log when the range write began. */
    method WritePageRound(address: nat, bytes: seq<uint8>, i: nat, pageAligned: nat, pageOffset: nat, n: nat,
                          ghost m0: seq<uint8>, ghost pages: seq<Segment>, ghost s0: seq<Error>, ghost log0: seq<Event>)
      returns (error: Error, nextAligned: nat, nextOffset: nat, next: nat, nextN: nat,
               ghost stored: nat, ghost nextPages: seq<Segment>)
      requires Valid() && address < 0x10000 && address + |bytes| <= cfg.totalSize
      requires Walk(address, |bytes|, cfg.pageSize, i, pageAligned, pageOffset, n, pages) && i < |bytes|
      requires |m0| == cfg.totalSize && Stored(m0, address, bytes, i, wire.link.mem)
      requires SuffixOf(wire.link.script, s0)
      requires log0 <= wire.link.log && AddressedTo(wire.link.log, |log0|, deviceAddress)
      requires |wire.link.log| <= |log0| + Budget(WriteRetries, i)
      modifies wire
      ensures Valid()
      ensures Walk(address, |bytes|, cfg.pageSize, next, nextAligned, nextOffset, nextN, nextPages) && i < next
      ensures nextPages == pages + [Segment(pageAligned, pageOffset, n)]
      ensures stored <= next && (IsOk(error) <==> stored == next)
      ensures !IsOk(error) ==> StopsIn(nextPages, address + stored)
      ensures Stored(m0, address, bytes, stored, wire.link.mem)
      ensures !IsOk(error) ==> Refused(wire.link.log, WriteRetries)
      ensures SuffixOf(wire.link.script, s0) && (NoRun(s0, WriteRetries) ==> IsOk(error))
      ensures log0 <= wire.link.log && AddressedTo(wire.link.log, |log0|, deviceAddress)
      ensures |wire.link.log| <= |log0| + Budget(WriteRetries, next)
    {
      WalkStep(address, |bytes|, cfg.pageSize, cfg.totalSize, i, pageAligned, pageOffset, n, pages);
      ghost var li := wire.link;
      if NoRun(s0, WriteRetries) {
        NoRunSuffix(li.script, s0, WriteRetries);
      }
      ghost var w;
      error, w := WriteToPage(pageAligned, pageOffset, bytes[i..i + n]);
      SuffixTrans(wire.link.script, li.script, s0);
      AddressedJoin(log0, li.log, wire.link.log, deviceAddress);
      WritePage(m0, address, bytes, cfg.pageSize, i, pageAligned, pageOffset, n, pages, w, li.mem, wire.link.mem);
      BudgetAdd(WriteRetries, i, n);
      stored, nextPages := i + w, pages + [Segment(pageAligned, pageOffset, n)];
      nextAligned := pageAligned + cfg.pageSize;
      nextOffset := 0;
      next := i + n;
      nextN := Min(|bytes| - next, cfg.pageSize);
    }

    /** The range `write`: the part of [address, address + |bytes|) in each
        page by `WriteToPage`, page after page, up to the first that fails.
        `pages` are the page writes made, in order; a failed write stops in
        the last of them. */
    method Write(address: nat, bytes: seq<uint8>) returns (ok: bool, ghost stored: nat, ghost pages: seq<Segment>)
      requires Valid() && address < 0x10000 && address + |bytes| <= cfg.totalSize
      modifies wire
      ensures Valid()
      ensures stored <= |bytes| && (ok <==> stored == |bytes|)
      ensures Stored(old(wire.link.mem), address, bytes, stored, wire.link.mem)
      ensures pages <= Segments(address, |bytes|, cfg.pageSize)
      ensures ok ==> pages == Segments(address, |bytes|, cfg.pageSize)
      ensures !ok ==> StopsIn(pages, address + stored)
      ensures !ok ==> Refused(wire.link.log, WriteRetries)
      ensures SuffixOf(wire.link.script, old(wire.link.script))
      ensures NoRun(old(wire.link.script), WriteRetries) ==> ok
      ensures old(wire.link.log) <= wire.link.log && AddressedTo(wire.link.log, |old(wire.link.log)|, deviceAddress)
      ensures |wire.link.log| <= |old(wire.link.log)| + Budget(WriteRetries, |bytes|)
    {
      ghost var m0, s0, log0 := wire.link.mem, wire.link.script, wire.link.log;
      var pageAligned: nat, pageOffset: nat := SplitAddress(address);
      var i: nat := 0;
      var n: nat := Min(|bytes|, cfg.pageSize - pageOffset);
      var error := WireNoError;
      stored, pages := 0, [];
      WalkStart(address, |bytes|, cfg.pageSize);
      assert bytes[..0] == [];
      SpliceEmpty(m0, address);
      while |bytes| - i > 0 && IsOk(error)
        invariant Valid()
        invariant Walk(address, |bytes|, cfg.pageSize, i, pageAligned, pageOffset, n, pages)
        invariant stored <= i && (IsOk(error) <==> stored == i)
        invariant !IsOk(error) ==> StopsIn(pages, address + stored)
        invariant Stored(m0, address, bytes, stored, wire.link.mem)
        invariant !IsOk(error) ==> Refused(wire.link.log, WriteRetries)
        invariant SuffixOf(wire.link.script, s0) && (NoRun(s0, WriteRetries) ==> IsOk(error))
        invariant log0 <= wire.link.log && AddressedTo(wire.link.log, |log0|, deviceAddress)
        invariant |wire.link.log| <= |log0| + Budget(WriteRetries, i)
        decreases |bytes| - i
      {
        error, pageAligned, pageOffset, i, n, stored, pages :=
          WritePageRound(address, bytes, i, pageAligned, pageOffset, n, m0, pages, s0, log0);
      }
      WalkPrefix(address, |bytes|, cfg.pageSize, i, pageAligned, pageOffset, n, pages);
      BudgetAdd(WriteRetries, i, |bytes| - i);
      ok := IsOk(error);
    }

    /** The address phase of a read: a transaction holding only the two
        address bytes, which sets the chip's pointer when acknowledged. */
    method SendAddress(address: nat) returns (error: Error)
      requires Valid() && address < 0x10000
      modifies wire
      ensures Valid() && wire.link.mem == old(wire.link.mem)
      ensures error == Status(old(wire.link)) && wire.link.script == Consume(old(wire.link))
      ensures wire.link.log == old(wire.link.log) + [Sent(deviceAddress, Frame(address, []), error)]
      ensures IsOk(error) ==> wire.link.pointer == Wrap(address, cfg.totalSize)
    {
      wire.BeginTransmission(deviceAddress);
      var k := wire.Write(HighByte(address));
      k := wire.Write(LowByte(address));
      assert wire.tx == Frame(address, []);
      AddressPhaseFrame(wire.link, deviceAddress, address);
      error := wire.EndTransmission();
    }

    /** What follows an acknowledged address phase in `readFromPage`: one
        request for at most `MaxBulkReadQuantity()` of the `remaining`
        bytes, copied to `bytes[at..]` as they come; none arriving is
        `NoDataAvailable`. */
    method FetchChunk(address: nat, remaining: nat, bytes: array<uint8>, at: nat) returns (error: Error, n: nat)
      requires Valid() && wire.link.pointer == address && remaining >= 1
      requires address + remaining <= cfg.totalSize && at + remaining <= bytes.Length
      modifies wire, bytes
      ensures Valid() && wire.link.mem == old(wire.link.mem)
      ensures n <= Min(MaxBulkReadQuantity(), remaining) && (IsOk(error) <==> n > 0)
      ensures !IsOk(error) ==> error == NoDataAvailable
      ensures bytes[..] == Splice(old(bytes[..]), at, wire.link.mem[address..address + n])
      ensures wire.link.script == Consume(old(wire.link)) && (IsOk(Status(old(wire.link))) ==> n > 0)
      ensures wire.link.log == old(wire.link.log) + [Requested(deviceAddress, Min(MaxBulkReadQuantity(), remaining), n)]
    {
      ghost var b0 := bytes[..];
      var quantity := Min(MaxBulkReadQuantity(), remaining);
      FetchLoads(wire.link, deviceAddress, quantity);
      n := wire.RequestFrom(deviceAddress, quantity);
      ghost var rx0, lr := wire.rx, wire.link;
      var available := wire.Available();
      if available > 0 {
        error := WireNoError;
        var j := 0;
        assert rx0[..0] == [];
        SpliceEmpty(b0, at);
        while j < n
          invariant 0 <= j <= n && wire.rx == rx0[j..] && wire.link == lr
          invariant bytes[..] == Splice(b0, at, rx0[..j])
        {
          ghost var before := bytes[..];
          var data := wire.Read();
          bytes[at + j] := LowByte(data);
          SpliceNext(b0, at, rx0, j, before, bytes[..]);
          j := j + 1;
        }
        assert rx0[..n] == rx0;
      } else {
        error := NoDataAvailable;
        SpliceEmpty(b0, at);
      }
    }

    /** The address phases that open the retry loops of the single-byte
        `read` and of `readFromPage`: up to `ReadRetries` of them, until one
        is acknowledged. */
    method SeekAddress(address: nat) returns (error: Error)
      requires Valid() && address < 0x10000
      modifies wire
      ensures Valid() && wire.link.mem == old(wire.link.mem)
      ensures IsOk(error) <==> !AllFail(old(wire.link.script), ReadRetries)
      ensures IsOk(error) ==> wire.link.pointer == Wrap(address, cfg.totalSize)
      ensures !IsOk(error) ==> Refused(wire.link.log, ReadRetries) && StoppedAt(wire.link, error)
      ensures !IsOk(error) ==> |wire.link.log| == |old(wire.link.log)| + ReadRetries
      ensures SuffixOf(wire.link.script, old(wire.link.script))
      ensures ReadClear(old(wire.link.script), 0) ==> IsOk(error) && Answers(wire.link.script)
      ensures old(wire.link.log) <= wire.link.log
      ensures |old(wire.link.log)| < |wire.link.log| <= |old(wire.link.log)| + ReadRetries
      ensures Transactions(wire.link.log, |old(wire.link.log)|, deviceAddress, Frame(address, []))
    {
      ghost var l0 := wire.link;
      error := WireNoError;
      var r := 0;
      while r < ReadRetries
        invariant Valid() && r <= ReadRetries && wire.link.mem == l0.mem
        invariant AllFail(l0.script, r) && wire.link.script == l0.script[r..] && (r > 0 ==> !IsOk(error))
        invariant Refused(wire.link.log, r) && (r > 0 ==> StoppedAt(wire.link, error))
        invariant l0.log <= wire.link.log && |wire.link.log| == |l0.log| + r
        invariant Transactions(wire.link.log, |l0.log|, deviceAddress, Frame(address, []))
      {
        ghost var l := wire.link;
        error := SendAddress(address);
        ghost var phase := Sent(deviceAddress, Frame(address, []), error);
        TransactionsMore(l.log, |l0.log|, deviceAddress, Frame(address, []), phase);
        assert SuffixOf(l.script, l0.script);
        ConsumeSuffix(l, l0.script);
        if IsOk(error) {
          ClearAfterRefusals(l0.script, r);
          if |l.script| > 0 && ReadClear(l0.script, 0) {
            ReadClearStep(l.script, r);
          }
          return;
        }
        RefusedMore(l.log, r, phase);
        r := r + 1;
      }
      assert SuffixOf(l0.script[r..], l0.script);
      ClearAfterRefusals(l0.script, r);
    }

    /** The retry loop of `readFromPage` for the `remaining` bytes from
        `address` on: the address phases, and after the first acknowledged
        one, `FetchChunk`. `n` counts the bytes copied. */
    method ReceiveChunk(address: nat, remaining: nat, bytes: array<uint8>, at: nat) returns (error: Error, n: nat)
      requires Valid() && address < 0x10000 && remaining >= 1
      requires address + remaining <= cfg.totalSize && at + remaining <= bytes.Length
      modifies wire, bytes
      ensures Valid() && wire.link.mem == old(wire.link.mem)
      ensures n <= Min(MaxBulkReadQuantity(), remaining) && (IsOk(error) <==> n > 0)
      ensures bytes[..] == Splice(old(bytes[..]), at, wire.link.mem[address..address + n])
      ensures !IsOk(error) ==> ReadStopped(wire.link, error)
      ensures !IsOk(error) && !NothingArrived(wire.link.log) ==> |wire.link.log| == |old(wire.link.log)| + ReadRetries
      ensures old(wire.link.script) == [] ==> IsOk(error) && wire.link.script == []
      ensures SuffixOf(wire.link.script, old(wire.link.script))
      ensures ReadClear(old(wire.link.script), 0) ==> IsOk(error) && ReadClear(wire.link.script, 0)
      ensures old(wire.link.log) <= wire.link.log
      ensures |wire.link.log| <= |old(wire.link.log)| + ReadRetries + 1
      ensures ReadRound(wire.link.log, |old(wire.link.log)|, deviceAddress, address, Min(MaxBulkReadQuantity(), remaining))
    {
      ghost var s0, log0, b0 := wire.link.script, wire.link.log, bytes[..];
      ghost var quantity := Min(MaxBulkReadQuantity(), remaining);
      assert SuffixOf(s0, s0);
      error := SeekAddress(address);
      if IsOk(error) {
        ghost var la := wire.link;
        error, n := FetchChunk(address, remaining, bytes, at);
        ghost var request := Requested(deviceAddress, quantity, n);
        RoundEnds(la.log, |log0|, deviceAddress, address, quantity, request);
        ConsumeSuffix(la, s0);
      } else {
        n := 0;
        PhasesRound(wire.link.log, |log0|, deviceAddress, address, quantity);
        SpliceEmpty(b0, at);
      }
    }

    /** One round of `readFromPage`'s loop: `ReceiveChunk` for the bytes
        from `bytesRead` on. `b0`, `s0` and `log0` are the buffer, the
        script and the log when the page read began. */
    method ReadChunkRound(pageAligned: nat, pageOffset: nat, bytes: array<uint8>, at: nat, count: nat, bytesRead: nat,
                          ghost b0: seq<uint8>, ghost s0: seq<Error>, ghost log0: seq<Event>)
      returns (error: Error, n: nat)
      requires Valid() && at + count <= bytes.Length && |b0| == bytes.Length && bytesRead < count
      requires pageAligned < 0x10000 && pageOffset < 256
      requires Wrap(pageAligned, cfg.pageSize) == 0 && pageOffset + count <= cfg.pageSize
      requires pageAligned + cfg.pageSize <= cfg.totalSize
      requires bytes[..] == Splice(b0, at, wire.link.mem[pageAligned + pageOffset..pageAligned + pageOffset + bytesRead])
      requires SuffixOf(wire.link.script, s0) && (ReadClear(s0, 0) ==> ReadClear(wire.link.script, 0))
      requires log0 <= wire.link.log && ReadTraffic(wire.link.log, |log0|, deviceAddress, MaxBulkReadQuantity())
      requires |wire.link.log| <= |log0| + Budget(ReadRetries + 1, bytesRead)
      modifies wire, bytes
      ensures Valid() && wire.link.mem == old(wire.link.mem)
      ensures bytesRead + n <= count && (IsOk(error) <==> n > 0)
      ensures bytes[..] == Splice(b0, at, wire.link.mem[pageAligned + pageOffset..pageAligned + pageOffset + bytesRead + n])
      ensures !IsOk(error) ==> ReadStopped(wire.link, error)
      ensures SuffixOf(wire.link.script, s0) && (ReadClear(s0, 0) ==> IsOk(error) && ReadClear(wire.link.script, 0))
      ensures log0 <= wire.link.log && ReadTraffic(wire.link.log, |log0|, deviceAddress, MaxBulkReadQuantity())
      ensures IsOk(error) ==> |wire.link.log| <= |log0| + Budget(ReadRetries + 1, bytesRead + n)
      ensures !IsOk(error) ==> |wire.link.log| <= |log0| + Budget(ReadRetries + 1, count)
    {
      var start := pageAligned + pageOffset;
      var address := start + bytesRead;
      ghost var l1, before := wire.link, bytes[..];
      error, n := ReceiveChunk(address, count - bytesRead, bytes, at + bytesRead);
      RoundJoin(log0, l1.log, wire.link.log, deviceAddress, address, Min(MaxBulkReadQuantity(), count - bytesRead), MaxBulkReadQuantity());
      SuffixTrans(wire.link.script, l1.script, s0);
      SpliceGrow(b0, at, wire.link.mem, start, bytesRead, at + bytesRead, address, n, bytesRead + n, before, bytes[..]);
      if IsOk(error) {
        BudgetStep(ReadRetries + 1, bytesRead, n);
      } else {
        BudgetStep(ReadRetries + 1, bytesRead, count - bytesRead);
        assert bytesRead + (count - bytesRead) == count;
      }
    }

    /** `readFromPage`: fill `bytes[at..at + count)` from the page at
        `pageAligned`, from `pageOffset` on, request by request, up to the
        first that fails. `got` counts the bytes delivered. */
    method ReadFromPage(pageAligned: nat, pageOffset: nat, bytes: array<uint8>, at: nat, count: nat)
      returns (error: Error, ghost got: nat)
      requires Valid() && at + count <= bytes.Length
      requires pageAligned < 0x10000 && pageOffset < 256
      requires Wrap(pageAligned, cfg.pageSize) == 0 && pageOffset + count <= cfg.pageSize
      requires pageAligned + cfg.pageSize <= cfg.totalSize
      modifies wire, bytes
      ensures Valid() && wire.link.mem == old(wire.link.mem)
      ensures got <= count && (IsOk(error) <==> got == count)
      ensures bytes[..] == Splice(old(bytes[..]), at,
                                  wire.link.mem[pageAligned + pageOffset..pageAligned + pageOffset + got])
      ensures !IsOk(error) ==> ReadStopped(wire.link, error)
      ensures SuffixOf(wire.link.script, old(wire.link.script))
      ensures ReadClear(old(wire.link.script), 0) ==> IsOk(error) && ReadClear(wire.link.script, 0)
      ensures old(wire.link.log) <= wire.link.log
      ensures ReadTraffic(wire.link.log, |old(wire.link.log)|, deviceAddress, MaxBulkReadQuantity())
      ensures |wire.link.log| <= |old(wire.link.log)| + Budget(ReadRetries + 1, count)
    {
      ghost var m0, s0, log0, b0 := wire.link.mem, wire.link.script, wire.link.log, bytes[..];
      ghost var start := pageAligned + pageOffset;
      error := WireNoError;
      var bytesRead: nat := 0;
      SpliceEmpty(b0, at);
      while count - bytesRead > 0 && IsOk(error)
        invariant Valid() && wire.link.mem == m0 && bytesRead <= count
        invariant !IsOk(error) ==> bytesRead < count
        invariant !IsOk(error) ==> ReadStopped(wire.link, error)
        invariant bytes[..] == Splice(b0, at, wire.link.mem[start..start + bytesRead])
        invariant SuffixOf(wire.link.script, s0) && (ReadClear(s0, 0) ==> IsOk(error) && ReadClear(wire.link.script, 0))
        invariant log0 <= wire.link.log && ReadTraffic(wire.link.log, |log0|, deviceAddress, MaxBulkReadQuantity())
        invariant IsOk(error) ==> |wire.link.log| <= |log0| + Budget(ReadRetries + 1, bytesRead)
        invariant !IsOk(error) ==> |wire.link.log| <= |log0| + Budget(ReadRetries + 1, count)
        decreases count - bytesRead + (if IsOk(error) then 1 else 0)
      {
        var n;
        error, n := ReadChunkRound(pageAligned, pageOffset, bytes, at, count, bytesRead, b0, s0, log0);
        bytesRead := bytesRead + n;
      }
      got := bytesRead;
    }

    /** One round of the range read's loop: `ReadFromPage` for the walk's
        next segment into `bytes` from position `i` on, after which the walk
        moves to the start of the following page whether or not the page was
        read. `got` counts the bytes of the range delivered so far; `s0` and
        `log0` are the script and the log when the range read began. */
    method ReadPageRound(address: nat, bytes: array<uint8>, count: nat, i: nat,
                         pageAligned: nat, pageOffset: nat, n: nat,
                         ghost b0: seq<uint8>, ghost pages: seq<Segment>, ghost s0: seq<Error>, ghost log0: seq<Event>)
      returns (error: Error, nextAligned: nat, nextOffset: nat, next: nat, nextN: nat,
               ghost got: nat, ghost nextPages: seq<Segment>)
      requires Valid() && address < 0x10000 && address + count <= cfg.totalSize && count <= bytes.Length
      requires Walk(address, count, cfg.pageSize, i, pageAligned, pageOffset, n, pages) && i < count
      requires |b0| == bytes.Length && bytes[..] == Splice(b0, 0, wire.link.mem[address..address + i])
      requires SuffixOf(wire.link.script, s0) && (ReadClear(s0, 0) ==> ReadClear(wire.link.script, 0))
      requires log0 <= wire.link.log && ReadTraffic(wire.link.log, |log0|, deviceAddress, MaxBulkReadQuantity())
      requires |wire.link.log| <= |log0| + Budget(ReadRetries + 1, i)
      modifies wire, bytes
      ensures Valid() && wire.link.mem == old(wire.link.mem)
      ensures Walk(address, count, cfg.pageSize, next, nextAligned, nextOffset, nextN, nextPages) && i < next
      ensures nextPages == pages + [Segment(pageAligned, pageOffset, n)]
      ensures got <= next && (IsOk(error) <==> got == next)
      ensures !IsOk(error) ==> StopsIn(nextPages, address + got)
      ensures bytes[..] == Splice(b0, 0, wire.link.mem[address..address + got])
      ensures !IsOk(error) ==> NothingArrived(wire.link.log) || Refused(wire.link.log, ReadRetries)
      ensures SuffixOf(wire.link.script, s0) && (ReadClear(s0, 0) ==> IsOk(error) && ReadClear(wire.link.script, 0))
      ensures log0 <= wire.link.log && ReadTraffic(wire.link.log, |log0|, deviceAddress, MaxBulkReadQuantity())
      ensures |wire.link.log| <= |log0| + Budget(ReadRetries + 1, next)
    {
      WalkStep(address, count, cfg.pageSize, cfg.totalSize, i, pageAligned, pageOffset, n, pages);
      error, got := ReadSegment(address, bytes, i, pageAligned, pageOffset, n, b0, s0, log0);
      nextAligned := pageAligned + cfg.pageSize;
      nextOffset := 0;
      next := i + n;
      nextN := Min(count - next, cfg.pageSize);
      nextPages := pages + [Segment(pageAligned, pageOffset, n)];
      WalkNext(address, count, cfg.pageSize, i, pageAligned, pageOffset, n, pages, next, nextAligned, nextN, nextPages);
    }

    /** The transfer of one round of the range read: `ReadFromPage` for the
        `n` bytes of the page at `pageAligned` from `pageOffset` on, into
        `bytes` right behind the `i` bytes of the range from `address` read
        so far. `got` counts the bytes of the range delivered after it. */
    method ReadSegment(address: nat, bytes: array<uint8>, i: nat, pageAligned: nat, pageOffset: nat, n: nat,
                       ghost b0: seq<uint8>, ghost s0: seq<Error>, ghost log0: seq<Event>)
      returns (error: Error, ghost got: nat)
      requires Valid() && i + n <= bytes.Length && pageAligned + pageOffset == address + i
      requires pageAligned < 0x10000 && pageOffset < 256
      requires Wrap(pageAligned, cfg.pageSize) == 0 && pageOffset + n <= cfg.pageSize
      requires pageAligned + cfg.pageSize <= cfg.totalSize
      requires |b0| == bytes.Length && bytes[..] == Splice(b0, 0, wire.link.mem[address..address + i])
      requires SuffixOf(wire.link.script, s0) && (ReadClear(s0, 0) ==> ReadClear(wire.link.script, 0))
      requires log0 <= wire.link.log && ReadTraffic(wire.link.log, |log0|, deviceAddress, MaxBulkReadQuantity())
      requires |wire.link.log| <= |log0| + Budget(ReadRetries + 1, i)
      modifies wire, bytes
      ensures Valid() && wire.link.mem == old(wire.link.mem)
      ensures i <= got <= i + n && (IsOk(error) <==> got == i + n)
      ensures bytes[..] == Splice(b0, 0, wire.link.mem[address..address + got])
      ensures !IsOk(error) ==> NothingArrived(wire.link.log) || Refused(wire.link.log, ReadRetries)
      ensures SuffixOf(wire.link.script, s0) && (ReadClear(s0, 0) ==> IsOk(error) && ReadClear(wire.link.script, 0))
      ensures log0 <= wire.link.log && ReadTraffic(wire.link.log, |log0|, deviceAddress, MaxBulkReadQuantity())
      ensures |wire.link.log| <= |log0| + Budget(ReadRetries + 1, i + n)
    {
      ghost var li, before := wire.link, bytes[..];
      ghost var g;
      error, g := ReadFromPage(pageAligned, pageOffset, bytes, i, n);
      got := i + g;
      TrafficJoin(log0, li.log, wire.link.log, deviceAddress, MaxBulkReadQuantity());
      SuffixTrans(wire.link.script, li.script, s0);
      BudgetAdd(ReadRetries + 1, i, n);
      SpliceGrow(b0, 0, wire.link.mem, address, i, i, pageAligned + pageOffset, g, got, before, bytes[..]);
    }

    /** The range `read`: fill `bytes[0..count)` from [address, address +
        count), the part in each page by `ReadFromPage`, page after page, up
        to the first that fails. `got` counts the bytes delivered and `pages`
        lists the page segments transferred; a failed read stops in the last
        of them. */
    method Read(address: nat, bytes: array<uint8>, count: nat) returns (ok: bool, ghost got: nat, ghost pages: seq<Segment>)
      requires Valid() && address < 0x10000 && address + count <= cfg.totalSize && count <= bytes.Length
      modifies wire, bytes
      ensures Valid() && wire.link.mem == old(wire.link.mem)
      ensures got <= count && (ok <==> got == count)
      ensures bytes[..] == Splice(old(bytes[..]), 0, wire.link.mem[address..address + got])
      ensures pages <= Segments(address, count, cfg.pageSize)
      ensures ok ==> pages == Segments(address, count, cfg.pageSize)
      ensures !ok ==> StopsIn(pages, address + got)
      ensures !ok ==> NothingArrived(wire.link.log) || Refused(wire.link.log, ReadRetries)
      ensures SuffixOf(wire.link.script, old(wire.link.script))
      ensures ReadClear(old(wire.link.script), 0) ==> ok
      ensures old(wire.link.log) <= wire.link.log
      ensures ReadTraffic(wire.link.log, |old(wire.link.log)|, deviceAddress, MaxBulkReadQuantity())
      ensures |wire.link.log| <= |old(wire.link.log)| + Budget(ReadRetries + 1, count)
    {
      ghost var m0, s0, log0, b0 := wire.link.mem, wire.link.script, wire.link.log, bytes[..];
      var pageAligned: nat, pageOffset: nat := SplitAddress(address);
      var i: nat := 0;
      var n: nat := Min(count, cfg.pageSize - pageOffset);
      var error := WireNoError;
      got, pages := 0, [];
      WalkStart(address, count, cfg.pageSize);
      SpliceEmpty(b0, 0);
      assert m0[address..address] == [];
      while count - i > 0 && IsOk(error)
        invariant Valid() && wire.link.mem == m0
        invariant Walk(address, count, cfg.pageSize, i, pageAligned, pageOffset, n, pages)
        invariant got <= i && (IsOk(error) <==> got == i)
        invariant !IsOk(error) ==> StopsIn(pages, address + got)
        invariant bytes[..] == Splice(b0, 0, wire.link.mem[address..address + got])
        invariant !IsOk(error) ==> NothingArrived(wire.link.log) || Refused(wire.link.log, ReadRetries)
        invariant SuffixOf(wire.link.script, s0) && (ReadClear(s0, 0) ==> IsOk(error) && ReadClear(wire.link.script, 0))
        invariant log0 <= wire.link.log && ReadTraffic(wire.link.log, |log0|, deviceAddress, MaxBulkReadQuantity())
        invariant |wire.link.log| <= |log0| + Budget(ReadRetries + 1, i)
        decreases count - i
      {
        error, pageAligned, pageOffset, i, n, got, pages :=
          ReadPageRound(address, bytes, count, i, pageAligned, pageOffset, n, b0, pages, s0, log0);
      }
      WalkPrefix(address, count, cfg.pageSize, i, pageAligned, pageOffset, n, pages);
      BudgetAdd(ReadRetries + 1, i, count - i);
      ok := IsOk(error);
    }
  }
}

=== FILE: properties.dfy ===
/** The round trips the driver's own test suite checks on a real chip: a
    byte written is read back, and a range written is read back into a
    buffer, whatever pages it spans. */
module RoundTrip {
  import opened Bits
  import opened EepromDefs
  import opened Device
  import opened WriteSpec
  import opened ReadSpec
  import opened AT24Cx

  /** Memory that holds all of `data` at `address`, read from there into
      the front of any buffer, gives back `data`; the memory outside the
      range is as it was. */
  lemma WrittenReadsBack(m0: seq<uint8>, address: nat, data: seq<uint8>, m: seq<uint8>, b0: seq<uint8>)
    requires address + |data| <= |m0| && |data| <= |b0|
    requires Stored(m0, address, data, |data|, m)
    ensures |m| == |m0| && m[address..address + |data|] == data
    ensures m[..address] == m0[..address] && m[address + |data|..] == m0[address + |data|..]
    ensures Splice(b0, 0, m[address..address + |data|])[..|data|] == data
  {
    assert data[..|data|] == data;
    SpliceContents(m0, address, data);
    SpliceContents(b0, 0, data);
  }

  /** `test_byteOperations`: read a byte, write its complement back, read
      it again and compare. On a bus that acknowledges everything the
      comparison holds. */
  method ByteOperations(eeprom: AT24CxEeprom, address: nat) returns (same: bool)
    requires eeprom.Valid() && address < eeprom.cfg.totalSize
    modifies eeprom.wire
    ensures eeprom.Valid()
    ensures old(eeprom.wire.link.script) == [] ==> same
  {
    ghost var got;
    var ok, byte0, byte1;
    ok, byte0, got := eeprom.ReadByte(address, 0);
    byte0 := 255 - byte0;
    ok := eeprom.WriteByte(address, byte0);
    ok, byte1, got := eeprom.ReadByte(address, 0);
    same := byte1 == byte0;
  }

  /** `writeReadAndCompare`: write `data` at `address`, read as many bytes
      back into `readBuffer` and compare. Whenever both transfers report
      success, the bytes read are the bytes written; on a bus that
      acknowledges everything, both do. */
  method WriteReadAndCompare(eeprom: AT24CxEeprom, address: nat, data: seq<uint8>, readBuffer: array<uint8>)
    returns (written: bool, read: bool, same: bool)
    requires eeprom.Valid() && address < 0x10000 && address + |data| <= eeprom.cfg.totalSize
    requires |data| <= readBuffer.Length
    modifies eeprom.wire, readBuffer
    ensures eeprom.Valid()
    ensures written && read ==> same
    ensures old(eeprom.wire.link.script) == [] ==> written && read && same
  {
    ghost var m0 := eeprom.wire.link.mem;
    ghost var b0 := readBuffer[..];
    ghost var stored, got, pages;
    EmptyScriptClear(eeprom.wire.link.script, WriteRetries);
    written, stored, pages := eeprom.Write(address, data);
    EmptyScriptClear(eeprom.wire.link.script, ReadRetries);
    read, got, pages := eeprom.Read(address, readBuffer, |data|);
    if written && read {
      WrittenReadsBack(m0, address, data, eeprom.wire.link.mem, b0);
    }
    same := readBuffer[..|data|] == data;
  }
}

=== FILE: read_spec.dfy ===
/** What one read transaction does: the address phase that sets the chip's
    pointer, and the request that delivers the bytes from there on. Reads
    never change the chip's memory. */
module ReadSpec {
  import opened Bits
  import opened EepromDefs
  import opened Device
  import opened Transport
  import opened WriteSpec

  /** The address phase: a frame holding only the two address bytes. */
  function AddressPhase(l: Link, device: bv8, address: nat): (r: (Link, Error))
    requires Valid(l) && address < 0x10000
    ensures Steady(l, r.0) && r.0.mem == l.mem
  {
    End(l, device, Frame(address, []))
  }

  /** The address phase puts one two-byte frame on the bus, high byte first,
      takes the next scripted outcome, and once the chip acknowledges it the
      chip's pointer is at the address (counted modulo the array's size). */
  lemma AddressPhaseFrame(l: Link, device: bv8, address: nat)
    requires Valid(l) && address < 0x10000
    ensures var (r, e) := AddressPhase(l, device, address);
      && r.log == l.log + [Sent(device, Frame(address, []), e)]
      && Frame(address, []) == [HighByte(address), LowByte(address)]
      && e == Status(l) && r.script == Consume(l)
      && (IsOk(e) ==> r.pointer == Wrap(address, |l.mem|))
      && (IsOk(e) && address < |l.mem| ==> r.pointer == address)
  {
    var f := Frame(address, []);
    assert f == [HighByte(address), LowByte(address)];
  }

  /** A request from the chip's pointer delivers the bytes stored from there
      on: as many as asked for and the receive buffer holds when the chip
      answers, none when it does not. */
  lemma FetchLoads(l: Link, device: bv8, quantity: nat)
    requires Valid(l) && l.pointer + quantity <= |l.mem|
    ensures var (r, data) := Request(l, device, quantity);
      && |data| == (if IsOk(Status(l)) then Min(quantity, l.bufferLength) else 0)
      && data == l.mem[l.pointer..l.pointer + |data|]
      && r.mem == l.mem && r.script == Consume(l)
      && r.log == l.log + [Requested(device, quantity, |data|)]
  {
    var k := if IsOk(Status(l)) then Min(quantity, l.bufferLength) else 0;
    SeqReadInside(l.mem, l.pointer, k);
  }

  /** Outcomes under which every read round succeeds, `r` being the
      address phases of the current round refused so far: each round's
      address phase is refused fewer than `ReadRetries` times in a row, and
      the request after the acknowledged one is answered; then the next
      round starts afresh. */
  predicate ReadClear(script: seq<Error>, r: nat)
    decreases |script|
  {
    script == [] ||
    if IsOk(script[0]) then |script| == 1 || (IsOk(script[1]) && ReadClear(script[2..], 0))
    else r + 1 < ReadRetries && ReadClear(script[1..], r + 1)
  }

  /** What is left right after an acknowledged address phase of a clear
      script: the request is answered, and what follows it is clear. */
  predicate Answers(script: seq<Error>) {
    script == [] || (IsOk(script[0]) && ReadClear(script[1..], 0))
  }

  /** A refused address phase of a clear round leaves a clear round with one
      more refusal; an acknowledged one leaves its request answered. */
  lemma ReadClearStep(script: seq<Error>, r: nat)
    requires ReadClear(script, r) && script != []
    ensures IsOk(script[0]) ==> Answers(script[1..])
    ensures !IsOk(script[0]) ==> r + 1 < ReadRetries && ReadClear(script[1..], r + 1)
  {
    if IsOk(script[0]) && |script| > 1 {
      assert script[1..][1..] == script[2..];
    }
  }

  /** After `r` refused address phases, a clear script leaves a clear round
      with `r` refusals behind it, and `r` is short of the retry limit. */
  lemma {:induction false} ClearAfterRefusals(script: seq<Error>, r: nat)
    requires AllFail(script, r)
    ensures ReadClear(script, 0) ==> r < ReadRetries && ReadClear(script[r..], r)
  {
    if r > 0 && ReadClear(script, 0) {
      ClearAfterRefusals(script, r - 1);
      ReadClearStep(script[r - 1..], r - 1);
      assert script[r - 1..][1..] == script[r..];
    }
  }

  /** A read of two rounds whose second address phase is refused once is
      clear: a passing refusal between rounds is retried. */
  lemma PassingRefusal(ack: Error, nack: Error)
    requires IsOk(ack) && !IsOk(nack)
    ensures ReadClear([ack, ack, nack, ack, ack], 0)
  {
    var s := [ack, ack, nack, ack, ack];
    assert s[2..][1..][2..] == [];
    assert ReadClear(s[2..][1..], 1);
    assert s[2..][1..] == [ack, ack];
    assert ReadClear(s[2..], 0);
  }

  /** The events from `from` on are one read round for `address`, all of
      them to `device`: address phases, and at most one request, for
      `quantity` bytes, which can only be the last event. */
  predicate ReadRound(log: seq<Event>, from: nat, device: bv8, address: nat, quantity: nat)
    requires address < 0x10000
  {
    && from < |log|
    && forall k :: from <= k < |log| ==>
         && log[k].device == device
         && (log[k].Sent? ==> log[k].frame == Frame(address, []))
         && (log[k].Requested? ==> k == |log| - 1 && log[k].quantity == quantity)
  }

  /** Address phases followed by one last event of the round's kinds make a
      round. */
  lemma RoundEnds(log: seq<Event>, from: nat, device: bv8, address: nat, quantity: nat, e: Event)
    requires address < 0x10000 && from <= |log|
    requires Transactions(log, from, device, Frame(address, []))
    requires e.device == device && (e.Sent? ==> e.frame == Frame(address, []))
    requires e.Requested? ==> e.quantity == quantity
    ensures ReadRound(log + [e], from, device, address, quantity)
  {
    forall k | from <= k < |log| + 1
      ensures (log + [e])[k] == if k < |log| then log[k] else e
    {
    }
  }

  /** A non-empty run of address phases is a round. */
  lemma PhasesRound(log: seq<Event>, from: nat, device: bv8, address: nat, quantity: nat)
    requires address < 0x10000 && from < |log|
    requires Transactions(log, from, device, Frame(address, []))
    ensures ReadRound(log, from, device, address, quantity)
  {
  }

  /** A log that keeps to the traffic bound, extended by a round of
      requests for at most `cap` bytes to the same device, keeps to it. */
  lemma RoundJoin(base: seq<Event>, prefix: seq<Event>, log: seq<Event>, device: bv8, address: nat, quantity: nat, cap: nat)
    requires address < 0x10000 && base <= prefix <= log && quantity <= cap
    requires ReadTraffic(prefix, |base|, device, cap)
    requires ReadRound(log, |prefix|, device, address, quantity)
    ensures base <= log && ReadTraffic(log, |base|, device, cap)
  {
    assert log[..|base|] == prefix[..|base|];
    forall k | |base| <= k < |log|
      ensures log[k].device == device && (log[k].Requested? ==> log[k].quantity <= cap)
    {
      if k < |prefix| {
        assert prefix[k] == log[k];
      }
    }
  }

  /** On the empty script every transaction succeeds: it has no run of
      failures and every read round is clear. */
  lemma EmptyScriptClear(script: seq<Error>, k: nat)
    requires k >= 1
    ensures script == [] ==> NoRun(script, k) && ReadClear(script, 0)
  {
  }

  /** The last thing on the bus is a read request that nothing answered. */
  predicate NothingArrived(log: seq<Event>) {
    |log| > 0 && log[|log| - 1].Requested? && log[|log| - 1].received == 0
  }

  /** How a failed read round ends: its request brought nothing back
      (`NoDataAvailable`), or the last of `ReadRetries` address phases in a
      row was refused with the status given. */
  predicate ReadStopped(l: Link, error: Error) {
    || (error == NoDataAvailable && NothingArrived(l.log))
    || (StoppedAt(l, error) && Refused(l.log, ReadRetries))
  }

  /** Every event since position `from` of the log went to `device`, and
      every read request among them asked for at most `cap` bytes. */
  predicate ReadTraffic(log: seq<Event>, from: nat, device: bv8, cap: nat) {
    forall k :: from <= k < |log| ==> log[k].device == device && (log[k].Requested? ==> log[k].quantity <= cap)
  }

  /** A log that keeps to the traffic bound, extended by events that keep to
      it, keeps to it. */
  lemma TrafficJoin(base: seq<Event>, prefix: seq<Event>, log: seq<Event>, device: bv8, cap: nat)
    requires base <= prefix <= log
    requires ReadTraffic(prefix, |base|, device, cap) && ReadTraffic(log, |prefix|, device, cap)
    ensures base <= log && ReadTraffic(log, |base|, device, cap)
  {
    assert log[..|base|] == prefix[..|base|];
    forall k | |base| <= k < |log|
      ensures log[k].device == device && (log[k].Requested? ==> log[k].quantity <= cap)
    {
      if k < |prefix| {
        assert prefix[k] == log[k];
      }
    }
  }
}

=== FILE: segmentation.dfy ===
/** How a byte range [address, address + count) is cut at page boundaries:
    the reference for the segments the range `write` and `read` issue. */
module Segmentation {
  import opened Bits
  import opened EepromDefs

  /** The part of a transfer that lies in one page. */
  datatype Segment = Segment(pageAligned: nat, offset: nat, len: nat) {
    function Start(): nat { pageAligned + offset }
    function End(): nat { pageAligned + offset + len }
  }

  /** A transfer that stops at position `at` stops inside the last segment
      it attempted. */
  predicate StopsIn(pages: seq<Segment>, at: nat) {
    pages != [] && pages[|pages| - 1].Start() <= at < pages[|pages| - 1].End()
  }

  /** The first segment of a non-empty range: from the address to the end of
      its page, or to the end of the range if that comes first. */
  function FirstSegment(address: nat, count: nat, pageSize: nat): (s: Segment)
    requires pageSize >= 1 && count >= 1
    ensures s.Start() == address && 1 <= s.len <= count
  {
    var offset := Wrap(address, pageSize);
    Segment(address - offset, offset, Min(count, pageSize - offset))
  }

  /** The first segment starts in the page of the address and stops at the
      end of that page at the latest; unless it takes the whole range, it
      stops exactly there. */
  lemma FirstSegmentInPage(address: nat, count: nat, pageSize: nat)
    requires pageSize >= 1 && count >= 1
    ensures var s := FirstSegment(address, count, pageSize);
      && Wrap(s.pageAligned, pageSize) == 0 && s.offset == Wrap(address, pageSize)
      && s.offset + s.len <= pageSize
      && (s.len == count || Wrap(s.End(), pageSize) == 0)
  {
    var s := FirstSegment(address, count, pageSize);
    WrapBase(address, pageSize);
    if s.len < count {
      assert s.End() == s.pageAligned + pageSize;
    }
  }

  /** All segments of [address, address + count), in address order. */
  function Segments(address: nat, count: nat, pageSize: nat): seq<Segment>
    requires pageSize >= 1
    decreases count, 1
  {
    if count == 0 then [] else SegmentsFrom(address, count, pageSize)
  }

  /** The segments of a non-empty range: its first segment, then the
      segments of the rest. */
  function SegmentsFrom(address: nat, count: nat, pageSize: nat): seq<Segment>
    requires pageSize >= 1 && count >= 1
    decreases count, 0
  {
    var s := FirstSegment(address, count, pageSize);
    [s] + Segments(s.End(), count - s.len, pageSize)
  }

  /** A non-empty range starts with its first segment. */
  lemma SegmentsCons(address: nat, count: nat, pageSize: nat)
    requires pageSize >= 1 && count >= 1
    ensures var s := FirstSegment(address, count, pageSize);
      Segments(address, count, pageSize) == [s] + Segments(s.End(), count - s.len, pageSize)
  {
  }

  /** The addresses a segment covers, in order. */
  function Span(s: Segment): seq<nat> {
    seq(s.len, j => s.Start() + j)
  }

  /** The addresses a list of segments covers, in order, with repetitions. */
  function Addresses(segs: seq<Segment>): seq<nat> {
    if segs == [] then [] else Span(segs[0]) + Addresses(segs[1..])
  }

  /** The consecutive addresses lo, lo + 1, ..., lo + n - 1. */
  function Interval(lo: nat, n: nat): seq<nat> {
    seq(n, j => lo + j)
  }

  /** Every segment is non-empty and stays inside one page; only the first
      may start in the middle of its page. */
  predicate InPages(segs: seq<Segment>, pageSize: nat)
    requires pageSize >= 1
  {
    forall i :: 0 <= i < |segs| ==>
      && segs[i].len >= 1
      && Wrap(segs[i].pageAligned, pageSize) == 0
      && segs[i].offset + segs[i].len <= pageSize
      && (i > 0 ==> segs[i].offset == 0)
  }

  lemma {:induction false} SegmentsInPages(address: nat, count: nat, pageSize: nat)
    requires pageSize >= 1
    ensures InPages(Segments(address, count, pageSize), pageSize)
    decreases count
  {
    if count > 0 {
      var s := FirstSegment(address, count, pageSize);
      var rest := Segments(s.End(), count - s.len, pageSize);
      SegmentsCons(address, count, pageSize);
      FirstSegmentInPage(address, count, pageSize);
      SegmentsInPages(s.End(), count - s.len, pageSize);
      var segs := Segments(address, count, pageSize);
      assert segs == [s] + rest;
      if rest != [] {
        SegmentsCons(s.End(), count - s.len, pageSize);
        assert rest[0] == FirstSegment(s.End(), count - s.len, pageSize);
        FirstSegmentInPage(s.End(), count - s.len, pageSize);
      }
      assert forall i :: 1 <= i < |segs| ==> segs[i] == rest[i - 1];
    }
  }

  /** The segments follow one another without gaps, from the address to the
      end of the range. */
  lemma {:induction false} SegmentsChain(address: nat, count: nat, pageSize: nat)
    requires pageSize >= 1
    ensures var segs := Segments(address, count, pageSize);
      && (segs == [] <==> count == 0)
      && (count > 0 ==> segs[0].Start() == address && segs[|segs| - 1].End() == address + count)
      && (forall i :: 0 <= i < |segs| - 1 ==> segs[i].End() == segs[i + 1].Start())
    decreases count
  {
    if count > 0 {
      var s := FirstSegment(address, count, pageSize);
      SegmentsChain(s.End(), count - s.len, pageSize);
    }
  }

  /** Together the segments cover every address of the range exactly once,
      in increasing order. */
  lemma {:induction false} SegmentsPartition(address: nat, count: nat, pageSize: nat)
    requires pageSize >= 1
    ensures Addresses(Segments(address, count, pageSize)) == Interval(address, count)
    decreases count
  {
    if count > 0 {
      var s := FirstSegment(address, count, pageSize);
      var segs := Segments(address, count, pageSize);
      SegmentsCons(address, count, pageSize);
      assert segs[1..] == Segments(s.End(), count - s.len, pageSize);
      SegmentsPartition(s.End(), count - s.len, pageSize);
      assert Span(s) + Interval(s.End(), count - s.len) == Interval(address, count);
    }
  }

  /** A segment of a range inside a device of whole pages has its whole page
      inside the device. */
  lemma PageInDevice(s: Segment, pageSize: nat, totalSize: nat)
    requires pageSize >= 1 && Wrap(totalSize, pageSize) == 0
    requires Wrap(s.pageAligned, pageSize) == 0 && s.len >= 1 && s.offset + s.len <= pageSize
    requires s.End() <= totalSize
    ensures s.pageAligned + pageSize <= totalSize
  {
    WrapAligned(s.pageAligned, totalSize, pageSize);
  }

  /** A range that fits in the rest of its page is one segment. */
  lemma OneSegment(address: nat, count: nat, pageSize: nat)
    requires pageSize >= 1 && count >= 1 && Wrap(address, pageSize) + count <= pageSize
    ensures Segments(address, count, pageSize)
      == [Segment(address - Wrap(address, pageSize), Wrap(address, pageSize), count)]
  {
    var s := FirstSegment(address, count, pageSize);
    assert s.len == count;
    assert Segments(address, count, pageSize) == [s] + Segments(s.End(), 0, pageSize);
  }

  /** One step of the page walk the range operations make: at `address + i`,
      with the page start and offset the masks give, the next transfer of
      `n` bytes is the first segment of the rest of the range, it stays in
      its page, and unless it ends the range the walk continues at the start
      of the following page. */
  lemma NextSegment(address: nat, count: nat, pageSize: nat, i: nat, pageAligned: nat, pageOffset: nat, n: nat)
    requires pageSize >= 1 && i < count
    requires pageAligned + pageOffset == address + i && pageOffset == Wrap(address + i, pageSize)
    requires n == Min(count - i, pageSize - pageOffset)
    ensures var s := Segment(pageAligned, pageOffset, n);
      && Segments(address + i, count - i, pageSize) == [s] + Segments(address + i + n, count - i - n, pageSize)
      && Wrap(s.pageAligned, pageSize) == 0 && s.offset + s.len <= pageSize && n >= 1
      && (i + n < count ==> pageAligned + pageSize == address + i + n && Wrap(address + i + n, pageSize) == 0)
  {
    FirstSegmentInPage(address + i, count - i, pageSize);
  }

  /** The state of the page walk the range operations make after `i` of the
      `count` bytes from `address`: the next transfer is `n` bytes from
      `pageOffset` in the page at `pageAligned`, and `pages` are the
      segments transferred so far, the first ones of the range. */
  predicate Walk(address: nat, count: nat, pageSize: nat, i: nat,
                 pageAligned: nat, pageOffset: nat, n: nat, pages: seq<Segment>)
    requires pageSize >= 1
  {
    && i <= count && pageOffset < pageSize && n == Min(count - i, pageSize - pageOffset)
    && (i < count ==> pageAligned + pageOffset == address + i && pageOffset == Wrap(address + i, pageSize))
    && pages + Segments(address + i, count - i, pageSize) == Segments(address, count, pageSize)
  }

  /** The walk starts at the page of the address, at the address's offset
      in it. */
  lemma WalkStart(address: nat, count: nat, pageSize: nat)
    requires pageSize >= 1
    ensures var offset := Wrap(address, pageSize);
      Walk(address, count, pageSize, 0, address - offset, offset, Min(count, pageSize - offset), [])
  {
  }

  /** The next segment of the walk lies in one page of the device. */
  lemma WalkStep(address: nat, count: nat, pageSize: nat, totalSize: nat, i: nat,
                 pageAligned: nat, pageOffset: nat, n: nat, pages: seq<Segment>)
    requires pageSize >= 1 && Wrap(totalSize, pageSize) == 0 && address + count <= totalSize
    requires Walk(address, count, pageSize, i, pageAligned, pageOffset, n, pages) && i < count
    ensures Wrap(pageAligned, pageSize) == 0 && 1 <= n && pageOffset + n <= pageSize
    ensures pageAligned + pageSize <= totalSize
  {
    NextSegment(address, count, pageSize, i, pageAligned, pageOffset, n);
    PageInDevice(Segment(pageAligned, pageOffset, n), pageSize, totalSize);
  }

  /** Once the next segment is transferred, the walk goes on at the start of
      the following page. */
  lemma WalkNext(address: nat, count: nat, pageSize: nat, i: nat,
                 pageAligned: nat, pageOffset: nat, n: nat, pages: seq<Segment>,
                 i': nat, pageAligned': nat, n': nat, pages': seq<Segment>)
    requires pageSize >= 1
    requires Walk(address, count, pageSize, i, pageAligned, pageOffset, n, pages) && i < count
    requires i' == i + n && pageAligned' == pageAligned + pageSize && n' == Min(count - i', pageSize)
    requires pages' == pages + [Segment(pageAligned, pageOffset, n)]
    ensures Walk(address, count, pageSize, i', pageAligned', 0, n', pages')
  {
    var s := Segment(pageAligned, pageOffset, n);
    NextSegment(address, count, pageSize, i, pageAligned, pageOffset, n);
    assert (pages + [s]) + Segments(address + i + n, count - i - n, pageSize) == Segments(address, count, pageSize);
  }

  /** A finished walk has transferred every segment of the range, and any
      walk only segments of it, in order. */
  lemma WalkPrefix(address: nat, count: nat, pageSize: nat, i: nat,
                   pageAligned: nat, pageOffset: nat, n: nat, pages: seq<Segment>)
    requires pageSize >= 1 && Walk(address, count, pageSize, i, pageAligned, pageOffset, n, pages)
    ensures pages <= Segments(address, count, pageSize)
    ensures i == count ==> pages == Segments(address, count, pageSize)
  {
  }

  /** Once the next segment is transferred, it is one more of the range's,
      and the walk goes on at the start of the following page. */
  lemma WalkOn(address: nat, count: nat, pageSize: nat, i: nat,
               pageAligned: nat, pageOffset: nat, n: nat, pages: seq<Segment>)
    requires pageSize >= 1
    requires Walk(address, count, pageSize, i, pageAligned, pageOffset, n, pages) && i < count
    ensures pageAligned + pageOffset == address + i && i + n <= count
    ensures var pages' := pages + [Segment(pageAligned, pageOffset, n)];
      && Walk(address, count, pageSize, i + n, pageAligned + pageSize, 0, Min(count - (i + n), pageSize), pages')
      && pages' <= Segments(address, count, pageSize)
  {
    var pages' := pages + [Segment(pageAligned, pageOffset, n)];
    var n' := Min(count - (i + n), pageSize);
    WalkNext(address, count, pageSize, i, pageAligned, pageOffset, n, pages, i + n, pageAligned + pageSize, n', pages');
    WalkPrefix(address, count, pageSize, i + n, pageAligned + pageSize, 0, n', pages');
  }

  /** The page calls the range loops make, as written: after each call the
      page start, a `uint16_t`, advances by one page modulo 2^16, the offset
      drops to 0 and the next length is the rest of the range capped at a
      page. */
  function RangeRounds(pageAligned: nat, offset: nat, rest: nat, pageSize: nat): seq<Segment>
    requires offset < pageSize
    decreases rest
  {
    if rest == 0 then []
    else
      var n := Min(rest, pageSize - offset);
      [Segment(pageAligned, offset, n)] + RangeRounds(Wrap(pageAligned + pageSize, 0x10000), 0, rest - n, pageSize)
  }

  /** As written, a range that runs past the top page of the 16-bit
      address space goes on at address 0: the page start wraps, and the
      second page call is a whole page-aligned segment at the bottom that
      meets the three page conditions of a 64 KiB chip. On the AT24C512
      (pages of 128 bytes), a write of two bytes from 0xFFFF stores its
      first byte at 0xFFFF and its second at 0. */
  lemma WrapAtTop(pageAligned: nat, offset: nat, rest: nat, pageSize: nat)
    requires offset < pageSize && pageAligned + pageSize == 0x10000 && pageSize - offset < rest
    ensures var rounds := RangeRounds(pageAligned, offset, rest, pageSize);
      && |rounds| >= 2 && rounds[0] == Segment(pageAligned, offset, pageSize - offset)
      && rounds[0].End() == 0x10000 && rounds[1].Start() == 0 && rounds[1].len >= 1
      && Wrap(rounds[1].pageAligned, pageSize) == 0 && rounds[1].offset + rounds[1].len <= pageSize
      && rounds[1].pageAligned + pageSize <= 0x10000
  {
    var n := pageSize - offset;
    assert Wrap(pageAligned + pageSize, 0x10000) == Wrap(0, 0x10000) == 0;
    assert RangeRounds(pageAligned, offset, rest, pageSize)
      == [Segment(pageAligned, offset, n)] + RangeRounds(0, 0, rest - n, pageSize);
    assert RangeRounds(0, 0, rest - n, pageSize)
      == [Segment(0, 0, Min(rest - n, pageSize))] + RangeRounds(Wrap(pageSize, 0x10000), 0, rest - n - Min(rest - n, pageSize), pageSize);
  }

  /** For a range that ends inside the 16-bit address space, the page calls
      the loops make as written are exactly the range's segments: the wrap
      of the page start is never reached. */
  lemma {:induction false} RoundsAreSegments(pageAligned: nat, offset: nat, rest: nat, pageSize: nat)
    requires offset < pageSize && Wrap(pageAligned, pageSize) == 0
    requires pageAligned + offset + rest <= 0x10000
    ensures RangeRounds(pageAligned, offset, rest, pageSize) == Segments(pageAligned + offset, rest, pageSize)
    decreases rest
  {
    if rest > 0 {
      var n := Min(rest, pageSize - offset);
      WrapOffset(pageAligned, offset, pageSize);
      assert FirstSegment(pageAligned + offset, rest, pageSize) == Segment(pageAligned, offset, n);
      SegmentsCons(pageAligned + offset, rest, pageSize);
      if n == rest {
        assert RangeRounds(Wrap(pageAligned + pageSize, 0x10000), 0, 0, pageSize) == [];
      } else {
        assert Wrap(pageAligned + pageSize, pageSize) == Wrap(pageAligned, pageSize);
        assert Wrap(pageAligned + pageSize, 0x10000) == pageAligned + pageSize;
        RoundsAreSegments(pageAligned + pageSize, 0, rest - n, pageSize);
      }
    }
  }
}

=== FILE: wire.dfy ===
/** The I2C transport the driver talks through (Arduino's `TwoWire`), with
    one EEPROM on the bus. It is an oracle: the outcome of every transaction
    comes from a script, and the chip behind it keeps its memory array and
    its internal address pointer. */
module Transport {
  import opened Bits
  import opened EepromDefs
  import opened Device

  /** What went over the bus, each with the 7-bit bus address it went to: a
      write transaction with its frame and outcome, or a read request with
      the quantity asked for and the quantity received. */
  datatype Event =
    | Sent(device: bv8, frame: seq<uint8>, status: Error)
    | Requested(device: bv8, quantity: nat, received: nat)

  /** Every event of `log` from position `from` on went to `device`. */
  predicate AddressedTo(log: seq<Event>, from: nat, device: bv8) {
    forall k :: from <= k < |log| ==> log[k].device == device
  }

  /** A log addressed to `device` from `from` on, extended by events
      addressed to it, is addressed to it from `from` on. */
  lemma AddressedJoin(base: seq<Event>, prefix: seq<Event>, log: seq<Event>, device: bv8)
    requires base <= prefix <= log
    requires AddressedTo(prefix, |base|, device) && AddressedTo(log, |prefix|, device)
    ensures base <= log && AddressedTo(log, |base|, device)
  {
    assert log[..|base|] == prefix[..|base|];
    forall k | |base| <= k < |log|
      ensures log[k].device == device
    {
      if k < |prefix| {
        assert prefix[k] == log[k];
      }
    }
  }

  /** Every event of `log` from position `from` on is a transaction to
      `device` carrying `frame`, whatever its outcome. */
  predicate Transactions(log: seq<Event>, from: nat, device: bv8, frame: seq<uint8>) {
    forall k :: from <= k < |log| ==> log[k].Sent? && log[k].device == device && log[k].frame == frame
  }

  /** One more such transaction keeps the log made of them. */
  lemma TransactionsMore(log: seq<Event>, from: nat, device: bv8, frame: seq<uint8>, e: Event)
    requires from <= |log| && Transactions(log, from, device, frame)
    requires e.Sent? && e.device == device && e.frame == frame
    ensures Transactions(log + [e], from, device, frame)
  {
    forall k | from <= k < |log| + 1
      ensures (log + [e])[k].Sent? && (log + [e])[k].device == device && (log + [e])[k].frame == frame
    {
      if k < |log| {
        assert (log + [e])[k] == log[k];
      }
    }
  }

  /** The state of the bus and the chip behind it. `bufferLength` is the
      capacity of the Wire library's transmit and receive buffers; `script`
      holds the outcomes of the coming transactions (once it is exhausted,
      every transaction succeeds); `log` is what went over the bus so far. */
  datatype Link = Link(
    pageSize: nat,
    bufferLength: nat,
    mem: seq<uint8>,
    pointer: nat,
    script: seq<Error>,
    log: seq<Event>)

  /** A chip with pages and memory, and a buffer large enough for the two
      address bytes and at least one data byte. */
  predicate Valid(l: Link) {
    l.pageSize >= 1 && l.bufferLength >= 3 && |l.mem| > 0 && l.pointer < |l.mem|
  }

  /** `r` is a valid state of the same chip and the same buffers as `l`. */
  predicate Steady(l: Link, r: Link) {
    r.pageSize == l.pageSize && r.bufferLength == l.bufferLength && |r.mem| == |l.mem| && Valid(r)
  }

  /** The outcome of the next transaction. */
  function Status(l: Link): Error {
    if |l.script| == 0 then WireNoError else l.script[0]
  }

  /** The script once the next transaction has taken its outcome. */
  function Consume(l: Link): seq<Error> {
    if |l.script| == 0 then [] else l.script[1..]
  }

  /** The address a frame sets the chip's pointer to: its first two bytes,
      high byte first, with the bits above the array's size ignored. */
  function FrameAddress(frame: seq<uint8>, size: nat): (at: nat)
    requires |frame| >= 2 && size >= 1
    ensures at < size
  {
    Wrap(frame[0] as nat * 256 + frame[1] as nat, size)
  }

  /** The memory once the chip has taken an acknowledged frame: the bytes
      after the address are stored from there on, rolling over inside the
      page. */
  function StoreFrame(mem: seq<uint8>, pageSize: nat, frame: seq<uint8>): (r: seq<uint8>)
    requires pageSize >= 1 && |mem| > 0
    ensures |r| == |mem|
  {
    if |frame| <= 2 then mem
    else
      var at := FrameAddress(frame, |mem|);
      var offset := Wrap(at, pageSize);
      PageWrite(mem, pageSize, at - offset, offset, frame[2..]).0
  }

  /** The chip's pointer once it has taken an acknowledged frame: at the
      address, or after the last byte stored. */
  function PointerAfter(mem: seq<uint8>, pageSize: nat, pointer: nat, frame: seq<uint8>): (r: nat)
    requires pageSize >= 1 && |mem| > 0 && pointer < |mem|
    ensures r < |mem|
  {
    if |frame| < 2 then pointer
    else
      var at := FrameAddress(frame, |mem|);
      if |frame| == 2 then at
      else
        var offset := Wrap(at, pageSize);
        var w := PageWrite(mem, pageSize, at - offset, offset, frame[2..]);
        Wrap(at - offset + w.1, |mem|)
  }

  /** `endTransmission` of `frame` to bus address `device`: send it, log it
      with its outcome, and let the chip act on it if it was acknowledged. */
  function End(l: Link, device: bv8, frame: seq<uint8>): (r: (Link, Error))
    requires Valid(l)
    ensures Steady(l, r.0)
  {
    var status := Status(l);
    var acked := IsOk(status);
    (Link(l.pageSize, l.bufferLength,
          if acked then StoreFrame(l.mem, l.pageSize, frame) else l.mem,
          if acked then PointerAfter(l.mem, l.pageSize, l.pointer, frame) else l.pointer,
          Consume(l), l.log + [Sent(device, frame, status)]),
     status)
  }

  /** `requestFrom` bus address `device`: read up to `quantity` bytes (no
      more than the buffer holds) from the chip's pointer on; returns the
      bytes that arrived, none when the chip does not answer. */
  function Request(l: Link, device: bv8, quantity: nat): (r: (Link, seq<uint8>))
    requires Valid(l)
    ensures Steady(l, r.0) && |r.1| <= quantity
  {
    var k := if IsOk(Status(l)) then Min(quantity, l.bufferLength) else 0;
    (l.(pointer := Wrap(l.pointer + k, |l.mem|), script := Consume(l),
        log := l.log + [Requested(device, quantity, k)]),
     SeqRead(l.mem, l.pointer, k))
  }

  /** The Wire object the driver holds a reference to: the bus with the
      chip, the bus address of the frame being built, and the transmit and
      receive buffers. */
  class TwoWire {
    var link: Link
    var target: bv8
    var tx: seq<uint8>
    var rx: seq<uint8>

    constructor (pageSize: nat, bufferLength: nat, mem: seq<uint8>, script: seq<Error>)
      requires pageSize >= 1 && bufferLength >= 3 && |mem| > 0
      ensures link == Link(pageSize, bufferLength, mem, 0, script, [])
      ensures tx == [] && rx == [] && Valid(link)
    {
      link := Link(pageSize, bufferLength, mem, 0, script, []);
      target := 0;
      tx, rx := [], [];
    }

    /** `beginTransmission`: start a new frame to bus address `address`. */
    method BeginTransmission(address: bv8)
      modifies this
      ensures target == address && tx == [] && link == old(link) && rx == old(rx)
    {
      target := address;
      tx := [];
    }

    /** `write`: append as many bytes as fit in the transmit buffer;
        returns how many did. */
    method WriteBytes(data: seq<uint8>) returns (n: nat)
      modifies this
      ensures n == Min(|data|, if |old(tx)| < link.bufferLength then link.bufferLength - |old(tx)| else 0)
      ensures tx == old(tx) + data[..n] && link == old(link) && rx == old(rx) && target == old(target)
    {
      n := Min(|data|, if |tx| < link.bufferLength then link.bufferLength - |tx| else 0);
      tx := tx + data[..n];
    }

    method Write(b: uint8) returns (n: nat)
      modifies this
      ensures n == (if |old(tx)| < link.bufferLength then 1 else 0)
      ensures tx == old(tx) + [b][..n] && link == old(link) && rx == old(rx) && target == old(target)
    {
      n := WriteBytes([b]);
    }

    method EndTransmission() returns (status: Error)
      requires Valid(link)
      modifies this
      ensures (link, status) == End(old(link), old(target), old(tx))
      ensures tx == [] && rx == old(rx)
    {
      var r := End(link, target, tx);
      link, status := r.0, r.1;
      tx := [];
    }

    method RequestFrom(address: bv8, quantity: nat) returns (n: nat)
      requires Valid(link)
      modifies this
      ensures (link, rx) == Request(old(link), address, quantity) && n == |rx|
      ensures tx == old(tx)
    {
      var r := Request(link, address, quantity);
      link, rx := r.0, r.1;
      n := |rx|;
    }

    method Available() returns (n: nat)
      ensures n == |rx|
    {
      n := |rx|;
    }

    /** `read`: the next received byte, or -1 when there is none. */
    method Read() returns (b: int)
      modifies this
      ensures old(rx) == [] ==> b == -1 && rx == []
      ensures old(rx) != [] ==> b == old(rx)[0] as int && rx == old(rx)[1..]
      ensures link == old(link) && tx == old(tx)
    {
      if rx == [] {
        b := -1;
      } else {
        b := rx[0] as int;
        rx := rx[1..];
      }
    }
  }
}

=== FILE: write_spec.dfy ===
/** What the driver's writes do to the bus and the chip, as functions of the
    transport state: one attempt, and what a run of them leaves in the chip
    and on the bus. */
module WriteSpec {
  import opened Bits
  import opened EepromDefs
  import opened Segmentation
  import opened Device
  import opened Transport

  /** The state after a write, the number of bytes the chip has stored and
      the last transport error. */
  datatype Outcome = Outcome(link: Link, n: nat, error: Error)

  /** A write frame: the address, high byte first, then the data. */
  function Frame(address: nat, data: seq<uint8>): (f: seq<uint8>)
    requires address < 0x10000
    ensures |f| == |data| + 2 && f[2..] == data
    ensures (f[0] as int) * 256 + f[1] as int == address
  {
    AddressBytes(address);
    [HighByte(address), LowByte(address)] + data
  }

  /** The first k outcomes of the script are all failures. */
  predicate AllFail(script: seq<Error>, k: nat) {
    k <= |script| && forall i :: 0 <= i < k ==> !IsOk(script[i])
  }

  /** The `k` outcomes of the script from position `i` on are all failures. */
  predicate FailsFrom(script: seq<Error>, i: nat, k: nat) {
    i + k <= |script| && forall j :: i <= j < i + k ==> !IsOk(script[j])
  }

  /** Nowhere in the script are there `k` failures in a row: not from its
      head, and not from any later outcome on. */
  predicate NoRun(script: seq<Error>, k: nat) {
    forall i :: 0 <= i <= |script| ==> !FailsFrom(script, i, k)
  }

  /** `s` is what is left of the script `t` once its first outcomes have
      been taken. */
  predicate SuffixOf(s: seq<Error>, t: seq<Error>) {
    |s| <= |t| && forall i :: 0 <= i < |s| ==> s[i] == t[|t| - |s| + i]
  }

  /** What is left of what is left of `t` is left of `t`. */
  lemma SuffixTrans(a: seq<Error>, b: seq<Error>, c: seq<Error>)
    requires SuffixOf(a, b) && SuffixOf(b, c)
    ensures SuffixOf(a, c)
  {
    forall i | 0 <= i < |a|
      ensures a[i] == c[|c| - |a| + i]
    {
      assert a[i] == b[|b| - |a| + i];
    }
  }

  /** Taking the next outcome leaves a suffix. */
  lemma ConsumeSuffix(l: Link, t: seq<Error>)
    requires SuffixOf(l.script, t)
    ensures SuffixOf(Consume(l), t)
  {
    if |l.script| > 0 {
      forall i | 0 <= i < |l.script| - 1
        ensures Consume(l)[i] == t[|t| - |Consume(l)| + i]
      {
        assert Consume(l)[i] == l.script[i + 1];
      }
    }
  }

  /** A script without `k` failures in a row leaves none behind either, and
      its first `k` outcomes are not all failures. */
  lemma NoRunSuffix(s: seq<Error>, t: seq<Error>, k: nat)
    requires SuffixOf(s, t) && NoRun(t, k)
    ensures NoRun(s, k) && !AllFail(s, k)
  {
    forall i | 0 <= i <= |s|
      ensures !FailsFrom(s, i, k)
    {
      FailsFromSuffix(s, t, i, k);
    }
    FailsFromSuffix(s, t, 0, k);
  }

  /** The outcomes of a suffix of `t` from position `i` on are those of `t`
      from `i` past the outcomes taken, so a run of failures starts at one
      exactly when it starts at the other. */
  lemma FailsFromSuffix(s: seq<Error>, t: seq<Error>, i: nat, k: nat)
    requires SuffixOf(s, t) && i <= |s|
    ensures FailsFrom(s, i, k) <==> FailsFrom(t, |t| - |s| + i, k)
    ensures i == 0 ==> (AllFail(s, k) <==> FailsFrom(s, 0, k))
  {
    var d := |t| - |s|;
    if FailsFrom(t, d + i, k) {
      forall j | i <= j < i + k
        ensures !IsOk(s[j])
      {
        assert s[j] == t[d + j];
      }
    }
    if FailsFrom(s, i, k) {
      forall j | d + i <= j < d + i + k
        ensures !IsOk(t[j])
      {
        assert s[j - d] == t[j];
      }
    }
  }

  /** One transaction: the two address bytes, as much of the data as the
      transmit buffer takes after them, end of transmission. `n` is the
      number of data bytes accepted. */
  function WriteAttempt(l: Link, device: bv8, address: nat, data: seq<uint8>): (r: Outcome)
    requires Valid(l) && address < 0x10000
    ensures Steady(l, r.link) && r.n <= |data| && (|data| > 0 ==> r.n >= 1)
  {
    var n := Min(|data|, l.bufferLength - 2);
    var e := End(l, device, Frame(address, data[..n]));
    Outcome(e.0, n, e.1)
  }

  /** Each attempt puts exactly one frame on the bus, the address high byte
      first, then the low byte, then the bytes the buffer accepted, and takes
      the next scripted outcome. */
  lemma WriteAttemptFrame(l: Link, device: bv8, address: nat, data: seq<uint8>)
    requires Valid(l) && address < 0x10000
    ensures var r := WriteAttempt(l, device, address, data);
      && r.n == Min(|data|, l.bufferLength - 2)
      && r.link.log == l.log + [Sent(device, Frame(address, data[..r.n]), r.error)]
      && Frame(address, data[..r.n]) == [HighByte(address), LowByte(address)] + data[..r.n]
      && r.error == Status(l) && r.link.script == Consume(l)
  {
  }

  /** A successful attempt inside one page stores the accepted bytes where
      they are addressed; a failed one leaves the memory alone. */
  lemma WriteAttemptStores(l: Link, device: bv8, pageAligned: nat, offset: nat, data: seq<uint8>)
    requires Valid(l) && pageAligned + offset < 0x10000
    requires Wrap(pageAligned, l.pageSize) == 0 && offset + |data| <= l.pageSize
    requires pageAligned + offset + |data| <= |l.mem|
    ensures var r := WriteAttempt(l, device, pageAligned + offset, data);
      r.link.mem == if IsOk(r.error) then Splice(l.mem, pageAligned + offset, data[..r.n]) else l.mem
  {
    var address := pageAligned + offset;
    var n := Min(|data|, l.bufferLength - 2);
    if IsOk(Status(l)) && n > 0 {
      var f := Frame(address, data[..n]);
      assert FrameAddress(f, |l.mem|) == address;
      WrapOffset(pageAligned, offset, l.pageSize);
      PageWriteInPage(l.mem, l.pageSize, pageAligned, offset, data[..n]);
      assert StoreFrame(l.mem, l.pageSize, f) == Splice(l.mem, address, data[..n]);
    }
  }

  /** `mem` is `m0` with the first `n` bytes of `data` stored at `address`
      and nothing else changed. */
  predicate Stored(m0: seq<uint8>, address: nat, data: seq<uint8>, n: nat, mem: seq<uint8>)
    requires address + |data| <= |m0|
  {
    n <= |data| && mem == Splice(m0, address, data[..n])
  }

  /** Storing the first `a` bytes and then the next `k` stores the first
      `a + k`. */
  lemma SpliceMore(m0: seq<uint8>, address: nat, data: seq<uint8>, a: nat, k: nat)
    requires a + k <= |data| && address + |data| <= |m0|
    ensures Splice(Splice(m0, address, data[..a]), address + a, data[a..][..k])
         == Splice(m0, address, data[..a + k])
  {
    SpliceSplice(m0, address, data[..a], data[a..][..k]);
    assert data[..a] + data[a..][..k] == data[..a + k];
  }

  /** Storing a prefix of the next `n` bytes after the first `i` extends the
      stored prefix. */
  lemma StoredMore(m0: seq<uint8>, address: nat, data: seq<uint8>, i: nat, n: nat, w: nat,
                   mi: seq<uint8>, m: seq<uint8>)
    requires i + n <= |data| && address + |data| <= |m0|
    requires Stored(m0, address, data, i, mi) && Stored(mi, address + i, data[i..i + n], w, m)
    ensures Stored(m0, address, data, i + w, m)
  {
    assert data[i..i + n][..w] == data[i..][..w];
    SpliceMore(m0, address, data, i, w);
  }

  /** One page of a range write: once the walk's next segment has been
      stored up to `w` of its bytes, the stored prefix has grown by `w`, the
      segment is one more of the range's, and the walk goes on at the start
      of the following page. */
  lemma WritePage(m0: seq<uint8>, address: nat, data: seq<uint8>, pageSize: nat, i: nat,
                  pageAligned: nat, pageOffset: nat, n: nat, pages: seq<Segment>,
                  w: nat, mi: seq<uint8>, m: seq<uint8>)
    requires pageSize >= 1 && address + |data| <= |m0|
    requires Walk(address, |data|, pageSize, i, pageAligned, pageOffset, n, pages) && i < |data|
    requires Stored(m0, address, data, i, mi)
    requires Stored(mi, pageAligned + pageOffset, data[i..i + n], w, m)
    ensures Stored(m0, address, data, i + w, m)
    ensures var pages' := pages + [Segment(pageAligned, pageOffset, n)];
      && Walk(address, |data|, pageSize, i + n, pageAligned + pageSize, 0, Min(|data| - (i + n), pageSize), pages')
      && pages' <= Segments(address, |data|, pageSize)
  {
    StoredMore(m0, address, data, i, n, w, mi, m);
    WalkOn(address, |data|, pageSize, i, pageAligned, pageOffset, n, pages);
  }

  /** A failed write has stopped right after the refused transaction: the
      last thing on the bus is that refusal. */
  predicate StoppedAt(l: Link, error: Error) {
    |l.log| > 0 && l.log[|l.log| - 1].Sent? && l.log[|l.log| - 1].status == error
  }

  /** The last `k` transactions on the bus were all refused. */
  predicate Refused(log: seq<Event>, k: nat) {
    k <= |log| && forall i :: |log| - k <= i < |log| ==> log[i].Sent? && !IsOk(log[i].status)
  }

  /** One more refusal extends a run of refusals. */
  lemma RefusedMore(log: seq<Event>, k: nat, e: Event)
    requires Refused(log, k) && e.Sent? && !IsOk(e.status)
    ensures Refused(log + [e], k + 1)
  {
    var log' := log + [e];
    forall i | |log'| - (k + 1) <= i < |log'|
      ensures log'[i].Sent? && !IsOk(log'[i].status)
    {
      if i < |log| {
        assert log'[i] == log[i];
      }
    }
  }
}
